=== FILE: README.md ===
# Flashcard quiz core, modelled in Dafny

This project models the deterministic core of the flashcard/quiz
application. It has three parts:

- **Question generation helpers of the Express back end**
  (`backend/server.js`):
  - `extractKeyPhrases`: sentence splitting, the length filter, sampling at a fixed stride, de-duplication and the cap;
  - the request-size clamps `Math.min(parseInt(x) || default, max)` and the final `slice(0, numQuestions)`;
  - the salvage of a JSON array from a chatty model reply (`/\[[\s\S]*\]/`);
  - the placeholder-option check `/^option\s+[a-d]$/i`;
  - the order in which `POST /api/generate-quiz-from-document` applies them.
- **The two quiz stores**:
  - the back end's in-memory `Map` with its `quizCounter`;
  - the Cloudflare worker's KV-backed store, with its `json` helper and router (`cloudflare-worker/src/index.js`).
- **The service worker's offline cache policy** (`service-worker.js`): install, activate and the three-branch, network-first fetch handler.

Each handler is a pure function from (state, request) to (state', reply). These are inputs, not computed values:

- the network's answer;
- the AI model's reply and what `JSON.parse` makes of it;
- the clock and `Math.random()`.

The JavaScript library behaviour the code relies on is written out in `JsText`:

- `String.prototype.trim` with the `\s` white-space set;
- `split(/[.!?]+/)`;
- `parseInt` without a radix (sign, `0x` prefix, longest digit run, `NaN`);
- `|| fallback` on numbers;
- `slice(0, n)` with its negative end;
- `substring(0, n)`;
- `String(n)` for a natural number;
- `includes`.

Modules and files:

| file | module | models |
|---|---|---|
| base.dfy | `Base` | `Option`, `Min`/`Max`, `NoDup`, `IsSubseq`, `Take`, `Remove`, the truthy-title test, the `Question` record |
| js_text.dfy | `JsText` | the JavaScript string and number built-ins listed above |
| key_phrases.dfy | `KeyPhrases` | `extractKeyPhrases` |
| generation.dfy | `Generation` | count clamps, JSON-array salvage, placeholder check, the document-quiz endpoint |
| backend_store.dfy | `BackendStore` | `/api/quizzes` CRUD on the in-memory `Map` |
| worker_store.dfy | `WorkerStore` | KV CRUD, `json`, routing and the 404 fallback of the worker |
| offline_cache.dfy | `OfflineCache` | Cache Storage, install, activate, fetch |

Points worth knowing about how the code behaves, and how the model follows it:

- **The fetch handler.**
  - It has no split by HTTP method. A request to the API origin takes the API branch whatever its method.
  - On a network failure it answers with the cache lookup, which may be undefined. It never builds a 503 response of its own.
  - In `caches.match('/index.html') || caches.match('./')` the left operand is a promise. A promise is always truthy, so the `./` lookup is never consulted (`OfflineCache.RootPageNeverServed`).
  - `cache.put` and `caches.match` follow the Cache API rules of the Service Workers specification:
    - `put` rejects a request whose method is not GET, and a 206 response;
    - `add` rejects any response that is not ok;
    - `match` finds nothing for a non-GET request and searches caches in creation order.

    So a POST to the API goes through the API branch, but its ok response is not stored.
- **The sampling loop of `extractKeyPhrases`** is written over the sentences not yet visited. Its index i is represented by `sentences[i..]`, and `i += step` drops step sentences, or all that remain (`KeyPhrases.Collect`).
- **The document-quiz endpoint** is modelled as written (`Generation.QuizFromDocument`), with no lower bound on the count. The corrected count of the finding below is modelled beside it (`Generation.QuizFromDocumentClamped`).
- **The worker's ids** (`'quiz_' + Date.now() + '_' + random`) are not checked for freshness. A create that draws an id already in use overwrites that record (`WorkerStore.Create` states `kv[id := record]`).
- **The back end's ids.** `String(quizCounter++)` does not repeat while the counter is below 2^53, because the counter only grows there (`BackendStore.CreateIssuesFreshId`). The model's counter is an unbounded natural number; see "## Left out".
- **The worker's list** returns the records under the keys of one `list()` call:
  - in ascending key order;
  - at most 1000 of them, because the code does not follow the listing cursor.
- **Quiz session state, score ledgers, attempt limits and letter grades** have no code in these files. They are not modelled.

## Model

| member | source | states |
|---|---|---|
| JsText.Trim | backend/server.js:85 | The trimmed string is the input with a run of white space removed at each end, and neither of its ends is white space. |
| JsText.TrimIsUnique | backend/server.js:85 | At most one string is a trim of a given input, so `Trim` is the trim. |
| JsText.TrimStart | backend/server.js:85 | Only leading white space is dropped, and the result does not start with white space. |
| JsText.TrimEnd | backend/server.js:85 | Only trailing white space is dropped, and the result does not end with white space. |
| JsText.SplitPiecesClean | backend/server.js:84 | No piece of `split(/[.!?]+/)` contains '.', '!' or '?'. |
| JsText.SplitReassembles | backend/server.js:84 | The pieces interleaved with the non-empty delimiter runs between them give back the original text. |
| JsText.SplitRunsMaximal | backend/server.js:84 | Only the first and the last piece can be empty, so each delimiter run is cut out whole. |
| JsText.Includes | service-worker.js:41 | `includes` is true exactly when the substring occurs at some position. |
| JsText.Decimal | backend/server.js:546 | `String(n)` is a non-empty run of decimal digits denoting n, one digit exactly for n < 10, starting with '0' only for 0. |
| JsText.DecimalInjective | backend/server.js:546 | Different counters render to different id strings. |
| JsText.DecimalRoundTrip | backend/server.js:112-115 | `parseInt` reads a rendered number and its negation back exactly. |
| JsText.ParseInt | backend/server.js:113 | `parseInt` gives a number only for a text holding a digit, and a negative number only for a text holding a minus sign. |
| JsText.ParseIntSkipsSpace | backend/server.js:113 | White space in front of the text does not change what `parseInt` reads. |
| JsText.ParseIntIgnoresTail | backend/server.js:113 | A run of decimal digits reads as its value whatever non-digit text follows it. |
| JsText.SliceTo | backend/server.js:221 | `slice(0, end)` returns a prefix of the list. For end ≥ 0 the prefix has min(end, length) elements. For a negative end it has all but the last -end elements, or none when -end exceeds the length. |
| JsText.SubstringTo | backend/server.js:133 | `substring(0, end)` returns the first min(max(end, 0), length) characters: nothing for end ≤ 0, the whole text for end ≥ its length. |
| KeyPhrases.Sentences | backend/server.js:82-86 | The sentences are the trimmed pieces of length strictly between 10 and 150, in order: every such piece is kept, as often as it occurs, and no other. |
| KeyPhrases.KeepModerate | backend/server.js:86 | The filter keeps every piece of moderate length as many times as it occurs, drops every other piece, and keeps the order. |
| KeyPhrases.TrimAll | backend/server.js:85 | Each sentence is the trim of the piece at the same position. |
| KeyPhrases.SentenceShape | backend/server.js:82-86 | Every sentence is trimmed, has no sentence delimiter, has moderate length and is the trim of one split piece. |
| KeyPhrases.SampledIndices | backend/server.js:92 | The sampled list holds exactly the sentences at indices 0, step, 2·step, … below the length. |
| KeyPhrases.DedupFacts | backend/server.js:93-94 | Keeping first occurrences gives a duplicate-free list of the same elements, ordered by where each first occurs. |
| KeyPhrases.DedupSnoc | backend/server.js:93-94 | Reading one more sentence leaves the distinct sentences unchanged if it is a repeat, and appends it if it is new. |
| KeyPhrases.Collect | backend/server.js:92-96 | The loop only appends to the phrases collected so far, never past count, without duplicates, and adds only sentences at the sampled indices. |
| KeyPhrases.CollectIsTakeDedup | backend/server.js:92-96 | The loop with its early exit computes the first count distinct sampled sentences. |
| KeyPhrases.ExtractKeyPhrases | backend/server.js:81-99 | At most count phrases, no duplicates, all of them filtered sentences, equal to the first count distinct sentences sampled at stride max(1, floor(n/count)); empty for count ≤ 0. |
| KeyPhrases.PickPhrases | backend/server.js:89-98 | The same cap, distinctness and stride sampling, over a given sentence list. |
| KeyPhrases.PhraseShape | backend/server.js:81-99 | Every returned phrase is a trimmed, delimiter-free fragment of the text, strictly between 10 and 150 long. |
| Generation.RequestedCount | backend/server.js:112-115 | The count as written is never above the limit. Below the limit it is the parsed number, or the fallback when that is falsy. Nothing bounds it from below. |
| Generation.RequestedCountClamp | backend/server.js:112-115 | The count never exceeds the limit. A positive number is honoured up to the limit. A missing, non-numeric or zero field falls back to the default. |
| Generation.CountOfNumber | backend/server.js:112-115 | A field that reads as a non-zero number no greater than the limit is taken as the count unchanged. |
| Generation.CountOfNegative | backend/server.js:112-115 | The field "-v" gives the count -v whenever the limit is at least -v: a negative number is truthy, so neither `\|\| 5` nor `Math.min` replaces it. |
| Generation.NegativeCountOvershoots | backend/server.js:112-115 | For the code as written, a count of "-v" passes both clamps, and `slice(0, -v)` keeps all but v questions. |
| Generation.ClampedCount | backend/server.js:112-115 | The corrected count lies in [1, limit] and agrees with the as-written count whenever that is at least 1. |
| Generation.ClampedCountBoundsResult | backend/server.js:221 | The truncated list has at most count questions, and exactly count when enough were generated. |
| Generation.SalvageSpan | backend/server.js:203 | The greedy match exists iff some '[' precedes some ']'. It spans from a '[' to a ']' and covers every such pair. |
| Generation.SalvageArray | backend/server.js:203-208 | The salvaged text is a substring of the reply that starts with '[' and ends with ']'. It is absent exactly when no such span exists. |
| Generation.SalvageIsFirstToLast | backend/server.js:203 | The salvaged text runs from the first '[' to the last ']'. |
| Generation.ParseReply | backend/server.js:200-214 | A reply that parses to a list is used as is. A reply that throws is replaced by its salvaged array, whose list is used when it parses. "Failed to parse AI response as JSON" is raised exactly when the reply throws and has no bracket span. The salvage's SyntaxError is raised exactly when the salvaged text throws too. A value that is not a list, from either parse, fails when `some` is called on it. |
| Generation.PlaceholderRunIsShape | backend/server.js:213 | The matcher accepts exactly "option" in any ASCII case, then one or more white-space characters, then one letter a–d in either case, and nothing else. |
| Generation.AnyPlaceholder | backend/server.js:213 | True iff some option is a placeholder. |
| Generation.HasPlaceholders | backend/server.js:212-214 | True iff some option of some question, after trimming, is a placeholder. A question without options contributes none. |
| Generation.AcceptedHasNoPlaceholderShape | backend/server.js:212-218 | A list that passes the check has no option of placeholder shape. |
| Generation.QuizFromDocument | backend/server.js:106-237 | Every reply is a 200, 400 or 500, and it is a 200 exactly when it carries generated questions. |
| Generation.DocumentQuizGenerates | backend/server.js:119-229 | A readable, non-empty document, a configured key and a reply that parses to a list without placeholders give the 200 with `slice(0, count)` of that list. |
| Generation.QuizFromDocumentSucceedsIff | backend/server.js:106-229 | The endpoint answers 200 exactly for a readable, non-empty document, a configured key, a model reply and a parsed list without placeholders. |
| Generation.DocumentQuizSuccess | backend/server.js:119-229 | A 200 reply comes from a readable, non-empty document, a configured key and a parsed reply without placeholders. It carries `slice(0, count)` of the parsed questions, the file name, the length of `substring(0, limit)` and the number of phrases of `extractKeyPhrases(text, 2·count)`. |
| Generation.QuizFromDocumentSuccess | backend/server.js:106-229 | A 200 reply carries a prefix of the parsed questions without placeholders, and at most the character limit. For a count of at least 0 it holds min(count, generated) questions and at most 2·count phrases. For a negative count it holds all but the last −count questions and no phrase. |
| Generation.QuizFromDocumentOvershoots | backend/server.js:112-221 | A successful request for "-v" questions returns all but the last v generated questions, which is more than the configured maximum when the model produced more than the maximum plus v. |
| Generation.QuizFromDocumentClampedSuccess | backend/server.js:112-221 | With the corrected count, a 200 reply holds min(count, generated) questions, from one up to the configured maximum, a prefix of the parsed list without placeholders, with at most 2·count phrases and at most the character limit. |
| Generation.QuizFromDocumentBadInput | backend/server.js:106-127 | A 400 reply is given exactly for a missing file, an unreadable file or an empty document. Every other reply is a 200 or a 500. |
| BackendStore.InitialValid | backend/server.js:47-48 | The start-up store satisfies the store invariant and lists nothing. |
| BackendStore.Create | backend/server.js:538-561 | A falsy title or missing or empty questions give a 400 and change nothing, counter included. Otherwise the quiz is stored under `String(counter)`, appended to the order, the counter grows by one, and no other key changes. |
| BackendStore.CreateIssuesFreshId | backend/server.js:546 | In a valid store the new id is not already stored. |
| BackendStore.CreateKeepsValid | backend/server.js:546-555 | Create preserves the store invariant: unique order, order and keys agree, records carry their key, keys were issued. |
| BackendStore.CreateTwiceDistinct | backend/server.js:546 | Two successful creates in a row hand out different ids. |
| BackendStore.Get | backend/server.js:572-589 | A missing id gives a 404. Otherwise the reply carries the stored quiz's id, title, creation time and questions. |
| BackendStore.CreateThenGet | backend/server.js:555-589 | Reading back a created quiz returns exactly the title and questions sent. |
| BackendStore.Put | backend/server.js:601-621 | A missing id gives a 404 and changes nothing. Otherwise a truthy title and any present question list replace the old ones, the update time is set, id and creation time are kept, the order is kept, and no other key changes. |
| BackendStore.PutKeepsValid | backend/server.js:611-615 | Update preserves the store invariant. |
| BackendStore.PutThenGet | backend/server.js:611-615 | Reading back an updated quiz shows its unchanged id, the merged title and questions, and the original creation time. |
| Base.Remove | backend/server.js:640 | Removing a key keeps every other element, in order, and keeps the list duplicate-free. |
| BackendStore.Delete | backend/server.js:632-645 | A missing id gives a 404 and changes nothing. Otherwise exactly that key leaves the map, the order keeps its relative order, and the counter stays. |
| BackendStore.DeleteKeepsValid | backend/server.js:640 | Delete preserves the store invariant. |
| BackendStore.DeleteThenGet | backend/server.js:546-640 | After a delete, get, update and delete of that id give 404. No counter value from the current one on renders to that id, and the counter never decreases, so no later create reuses it. |
| BackendStore.List | backend/server.js:656-669 | `GET /api/quizzes` answers 200 with one summary per stored key, in insertion order. |
| BackendStore.Summaries | backend/server.js:658-664 | One summary per listed key, in order, with the record's fields and question count. |
| BackendStore.ListOnePerQuiz | backend/server.js:656-664 | In a valid store the list holds exactly one entry per stored quiz, with `questionCount = questions.length`. |
| BackendStore.CreateThenList | backend/server.js:555-664 | A create appends exactly one summary, for the new quiz, to the end of the list. |
| WorkerStore.LexTotal | cloudflare-worker/src/index.js:31 | Key order is total. |
| WorkerStore.LexAntisymmetric | cloudflare-worker/src/index.js:31 | Key order is antisymmetric. |
| WorkerStore.LexTransitive | cloudflare-worker/src/index.js:31 | Key order is transitive. |
| WorkerStore.LeastExists | cloudflare-worker/src/index.js:31 | Every non-empty key set has a first key. |
| WorkerStore.SortedKeys | cloudflare-worker/src/index.js:31-34 | The listing holds each key once, in strictly ascending key order. |
| WorkerStore.JsonDefaultsTo200 | cloudflare-worker/src/index.js:15 | `json(data)` without a status is the same response as `json(data, 200)`. |
| WorkerStore.List | cloudflare-worker/src/index.js:28-39 | The list reply is a 200 holding min(number of keys, 1000) records. Entry i is the stored record under the i-th smallest key. |
| WorkerStore.ListIdsAreKeys | cloudflare-worker/src/index.js:28-39 | With at most 1000 keys, entry i of the list is the record under the i-th smallest key, and its id is that key. |
| WorkerStore.ListOnePerKey | cloudflare-worker/src/index.js:31-37 | Up to the listing limit there is exactly one entry per KV key. Each entry is the stored record, in ascending key order. |
| WorkerStore.Create | cloudflare-worker/src/index.js:47-98 | An unparsable body gives a 500 and a falsy title or missing or empty questions give a 400, both without a write. Otherwise the answer is a 201: the record is written under `quiz_<stamp>_<random>` and the reply reports `questionCount = questions.length`. |
| WorkerStore.CreateWritesOneKey | cloudflare-worker/src/index.js:61-75 | A successful create adds exactly one key, prefixed `quiz_`, and leaves every other key as it was. |
| WorkerStore.Get | cloudflare-worker/src/index.js:102-111 | An absent id gives a 404. Otherwise the stored record is returned unchanged. |
| WorkerStore.CreateThenGet | cloudflare-worker/src/index.js:64-111 | Reading back a created quiz returns the record written. |
| WorkerStore.Merge | cloudflare-worker/src/index.js:138-143 | The update keeps id and creation time. A truthy title and present questions replace the old values, and the update time is refreshed. |
| WorkerStore.Update | cloudflare-worker/src/index.js:125-152 | An unparsable body gives a 500, even for a missing id, and an absent id gives a 404, both without a write. Otherwise the answer is a 200: the merged record replaces the old one and is returned. |
| WorkerStore.UpdateKeepsOthers | cloudflare-worker/src/index.js:145-147 | An update keeps the key set and every other record. |
| WorkerStore.UpdateThenGet | cloudflare-worker/src/index.js:138-147 | Reading back an updated quiz shows the merged record. |
| WorkerStore.Delete | cloudflare-worker/src/index.js:166-182 | An absent id gives a 404. Otherwise exactly that key is removed and all other records are untouched. |
| WorkerStore.DeleteThenGet | cloudflare-worker/src/index.js:171-177 | After a delete, get, update and delete of that id all give 404. |
| WorkerStore.QuizId | cloudflare-worker/src/index.js:102 | `/api/quizzes/:id` matches exactly one non-empty segment after the prefix. |
| WorkerStore.RouteOf | cloudflare-worker/src/index.js:23-218 | A request falls through to the catch-all exactly when it is not OPTIONS and matches no registered method and path. |
| WorkerStore.Handle | cloudflare-worker/src/index.js:196-218 | An unmatched route gives the 404 document. OPTIONS gives an empty 200. Only POST, PUT and DELETE can change the namespace, and every response carries the CORS headers. |
| WorkerStore.HandleKeepsWellKeyed | cloudflare-worker/src/index.js:64-143 | Every request keeps each record stored under its own id. |
| OfflineCache.Open | service-worker.js:9 | Opening keeps every existing cache. A missing cache is created empty, after all the others. |
| OfflineCache.Put | service-worker.js:48 | The cache is opened. The pair is stored only for a GET request and a non-206 response, and no other cache changes. |
| OfflineCache.Match | service-worker.js:54 | `caches.match` gives the entry of the first cache, in creation order, that holds the URL of a GET request, and nothing for any other request or when no cache holds it. |
| OfflineCache.MatchIn | service-worker.js:54 | The lookup returns the entry of the first cache, in creation order, that holds the URL, and nothing when none does. |
| OfflineCache.Delete | service-worker.js:29 | Deleting a cache keeps all other caches and their order. |
| OfflineCache.Install | service-worker.js:7-18 | Install always finishes. The current generation holds its old entries plus exactly the assets whose `add` succeeded, and every other cache is unchanged. |
| OfflineCache.Activate | service-worker.js:23-32 | Every cache except the current generation and the API cache is deleted. The survivors keep their contents and relative order. |
| OfflineCache.NavigationFallback | service-worker.js:66 | The navigation fallback is the `/index.html` lookup. |
| OfflineCache.RootPageNeverServed | service-worker.js:66 | With only `./` cached, the fallback is undefined although `./` is in the cache. |
| OfflineCache.BranchOf | service-worker.js:41-70 | The API branch is taken exactly for an origin containing the API host. The navigation branch is taken exactly for other navigations. |
| OfflineCache.Fetch | service-worker.js:37-88 | A network response is returned unchanged. A network failure leaves the caches alone and answers with the cache lookup, or with the `/index.html` lookup for a navigation. An ok response is put in the API cache (API branch) or the current generation (other requests). Non-ok responses and navigations store nothing. |
| OfflineCache.ApiOriginWins | service-worker.js:41-58 | An API-origin request is handled the same whether or not it is a navigation, and whatever its method. |
| OfflineCache.ApiResponsesStayInApiCache | service-worker.js:44-51 | An API request never changes any cache other than the API cache. |
| OfflineCache.FetchWritesOnlyGets | service-worker.js:37-88 | Fetch keeps the caches well formed and only ever appends caches. A cache changes only for a GET with an ok, non-206 response. |
| OfflineCache.OnlineThenOffline | service-worker.js:73-86 | After an ok GET of an asset, going offline serves that response, unless an earlier-created cache also holds the URL. |

## Left out

- JavaScript strings are sequences of UTF-16 code units, and the model's strings are sequences of code points. The lengths in the 10/150 sentence filter and in `substring` differ only for characters outside the Basic Multilingual Plane.
- Number precision:
  - `parseInt` results are unbounded integers here. JavaScript rounds values beyond 2^53 to a double.
  - `Date.now()` is a natural number.
- BackendStore.Create: the counter is an unbounded natural number. In JavaScript, `quizCounter++` at 2^53 stores 2^53 again, because 2^53 + 1 rounds to 2^53. From then on every create would reuse the id "9007199254740992" and overwrite that quiz. `CreateIssuesFreshId` and `CreateTwiceDistinct` hold only below that bound, which takes 2^53 creates to reach.
- JsText.ParseInt: its own contract states only that a number needs a digit, and a negative one a minus sign. The decimal readings are stated by `ParseIntSkipsSpace`, `ParseIntIgnoresTail` and `DecimalRoundTrip`. The `0x` hexadecimal reading is stated by the body alone.
- The Groq HTTP calls, the prompts and `JSON.parse` (backend/server.js:140-197) are foreign calls. The model's reply and the outcome of parsing it are inputs to `Generation.ParseReply`.
- The topic endpoints (`/api/generate-quiz`, `/api/generate-cards`) and the flashcard document endpoint are not modelled. Only their shared count clamp is, as `Generation.RequestedCount` with the fallback and limit as parameters.
- Text extraction by `pdf-parse`, the multer upload limits and the MIME filter are library wrappers. The upload's extracted text, or the extraction error, is an input.
- Express and itty-router wiring, CORS middleware, static files, server start-up, logging, the Express 404 and error middleware, and the health and root documents are plumbing. The worker's routes are modelled on the exact path. Trailing slashes and percent-decoding of `:id` are not modelled.
- Request-body shapes:
  - Both stores take `title` as an optional string and `questions` as an optional list of questions.
  - A non-string title is not modelled.
  - A non-array `questions` is not modelled either. In the back end it can pass the length check, and it can make a handler throw and answer 500.
  - The `opt.trim()` TypeError for non-string options is not modelled either.
  - A parsed question array that holds `null`, or a question whose `options` is truthy but not an array (the string "A", say), makes the placeholder test at backend/server.js:212-214 throw. The catch at backend/server.js:231-236 then answers 500. `Question` keeps `options` as an optional list of strings, so `Generation.DocumentQuiz` and `Generation.QuizFromDocumentSucceedsIff` cannot express either reply.
- KV behaviour:
  - The 30-day `expirationTtl` is ignored.
  - KV's eventual consistency is not modelled.
  - Failing KV calls, and the 500 replies they cause, are not modelled.
  - The error `details` text is dropped from 500 bodies.
- The service worker:
  - Promise scheduling is sequential here. This covers `waitUntil`, `skipWaiting`, `clients.claim` and the fire-and-forget `cache.put`: each put is applied before the handler's next event.
  - URL resolution of relative asset paths and of `/index.html` is not modelled; keys are the URL strings as given.
  - `Vary` handling is not modelled.
  - `CACHE` and `ASSETS` come from `generated-assets.js`, which is not part of this model. They are parameters.
- The background-sync handler (service-worker.js:91-100) calls an empty stub.
- The `sentences[i] &&` test in the loop of `extractKeyPhrases` (backend/server.js:93) is left out of `KeyPhrases.Collect`. Every filtered sentence is longer than 10 characters, so the test is always true.

## Findings

| source | as written | input that shows it | evidently intended | confidence | as-written member | corrected member |
|---|---|---|---|---|---|---|
| backend/server.js:112-115 | `Math.min(parseInt(numQuestions) \|\| 5, maxQuestions)` has no lower bound. A negative count reaches `slice(0, numQuestions)` at line 221, and the slice then keeps all but the last \|count\| questions. | `numQuestions = "-3"` with 10 generated questions returns 7 questions. | The count is clamped to at least 1, so at most count questions are returned. | not executed | Generation.NegativeCountOvershoots | Generation.ClampedCount |

=== FILE: backend_store.dfy ===
/** The in-memory quiz store of the Express back end (backend/server.js):
    a `Map` from quiz id to quiz plus a counter that numbers new quizzes.
    Each handler is a pure function from the store and the request to the
    new store and the reply. The two `new Date().toISOString()` readings
    of a create are parameters, as is the one of an update. */
module BackendStore {
  import opened Base
  import opened JsText

  /** A stored quiz, with the fields the create handler writes. */
  datatype Quiz = Quiz(quizId: string, title: string, questions: seq<Question>, createdAt: string, updatedAt: string)

  /** The `Map` (its keys in insertion order, which is the order
      `quizzes.values()` walks) and `quizCounter`. */
  datatype State = State(order: seq<string>, quizzes: map<string, Quiz>, counter: nat)

  /** One entry of the list reply. */
  datatype Summary = Summary(quizId: string, title: string, questionCount: nat, createdAt: string, updatedAt: string)

  datatype Body =
    | Failure(error: string)
    | Created(quizId: string)
    | Found(quizId: string, title: string, createdAt: string, questions: seq<Question>)
    | Updated(quizId: string)
    | Deleted
    | Listing(quizzes: seq<Summary>)

  datatype Reply = Reply(status: nat, body: Body)

  datatype Outcome = Outcome(state: State, reply: Reply)

  const Required := "Title and questions are required"
  const NotFound := "Quiz not found"

  /** The store at start-up: empty, numbering from 1. */
  const Initial := State([], map[], 1)

  /** k is one of the ids `String(quizCounter++)` has already handed out. */
  ghost predicate Issued(k: string, counter: nat) {
    exists n: nat :: 1 <= n < counter && k == Decimal(n)
  }

  /** What every reachable store satisfies: the order lists each key once,
      every record carries its own key, and every key was issued by the
      counter. */
  ghost predicate Valid(st: State) {
    && st.counter >= 1
    && NoDup(st.order)
    && (forall k :: k in st.order <==> k in st.quizzes)
    && (forall k :: k in st.quizzes ==> st.quizzes[k].quizId == k && Issued(k, st.counter))
  }

  /** Apart from key k the two maps agree. */
  ghost predicate SameExcept<V>(a: map<string, V>, b: map<string, V>, k: string) {
    forall j :: j != k ==> (j in a <==> j in b) && (j in a ==> a[j] == b[j])
  }

  lemma InitialValid()
    ensures Valid(Initial)
    ensures List(Initial) == Reply(200, Listing([]))
  {
  }

  // ---------------------------------------------------------------------
  // POST /api/quizzes
  // ---------------------------------------------------------------------

  /** A quiz with a truthy title and a non-empty question list is stored
      under the next counter value; anything else is refused with 400
      before the counter moves. */
  function Create(st: State, title: Option<string>, questions: Option<seq<Question>>, createdAt: string, updatedAt: string): (r: Outcome)
    ensures r.reply.status == 400 <==> !(TitleGiven(title) && questions.Some? && |questions.value| > 0)
    ensures r.reply.status == 400 ==> r == Outcome(st, Reply(400, Failure(Required)))
    ensures r.reply.status != 400 ==>
      var id := Decimal(st.counter);
      && r.reply == Reply(201, Created(id))
      && r.state.counter == st.counter + 1
      && r.state.order == st.order + [id]
      && id in r.state.quizzes
      && r.state.quizzes[id] == Quiz(id, title.value, questions.value, createdAt, updatedAt)
      && SameExcept(r.state.quizzes, st.quizzes, id)
  {
    if !TitleGiven(title) || questions.None? || |questions.value| == 0 then
      Outcome(st, Reply(400, Failure(Required)))
    else
      var id := Decimal(st.counter);
      var quiz := Quiz(id, title.value, questions.value, createdAt, updatedAt);
      Outcome(State(st.order + [id], st.quizzes[id := quiz], st.counter + 1), Reply(201, Created(id)))
  }

  /** The id a create hands out was never handed out before, so it cannot
      overwrite a stored quiz. */
  lemma CreateIssuesFreshId(st: State, title: Option<string>, questions: Option<seq<Question>>, createdAt: string, updatedAt: string)
    requires Valid(st)
    ensures var r := Create(st, title, questions, createdAt, updatedAt);
      r.reply.status == 201 ==> r.reply.body.quizId !in st.quizzes && r.reply.body.quizId !in st.order
  {
  }

  lemma CreateKeepsValid(st: State, title: Option<string>, questions: Option<seq<Question>>, createdAt: string, updatedAt: string)
    requires Valid(st)
    ensures Valid(Create(st, title, questions, createdAt, updatedAt).state)
  {
    var r := Create(st, title, questions, createdAt, updatedAt);
    if r.reply.status == 201 {
      var id := Decimal(st.counter);
      CreateIssuesFreshId(st, title, questions, createdAt, updatedAt);
      var s2 := r.state;
      forall i, j | 0 <= i < j < |s2.order| ensures s2.order[i] != s2.order[j] {
        if j == |st.order| {
          assert st.order[i] in st.order;
        }
      }
      forall k | k in s2.quizzes ensures s2.quizzes[k].quizId == k && Issued(k, s2.counter) {
        if k == id {
          assert 1 <= st.counter < s2.counter && k == Decimal(st.counter);
        } else {
          var n: nat :| 1 <= n < st.counter && k == Decimal(n);
          assert 1 <= n < s2.counter;
        }
      }
    }
  }

  /** Two successful creates in a row hand out different ids. */
  lemma CreateTwiceDistinct(st: State, t1: Option<string>, q1: Option<seq<Question>>, t2: Option<string>, q2: Option<seq<Question>>, c1: string, u1: string, c2: string, u2: string)
    requires Valid(st)
    ensures var r1 := Create(st, t1, q1, c1, u1);
      var r2 := Create(r1.state, t2, q2, c2, u2);
      r1.reply.status == 201 && r2.reply.status == 201 ==> r1.reply.body.quizId != r2.reply.body.quizId
  {
    var r1 := Create(st, t1, q1, c1, u1);
    if r1.reply.status == 201 {
      CreateKeepsValid(st, t1, q1, c1, u1);
      CreateIssuesFreshId(r1.state, t2, q2, c2, u2);
    }
  }

  // ---------------------------------------------------------------------
  // GET /api/quizzes/:quizId
  // ---------------------------------------------------------------------

  /** A stored quiz comes back with its id, title, creation time and
      questions (not its update time); a missing one is a 404. */
  function Get(st: State, id: string): (r: Reply)
    ensures r.status == 404 <==> id !in st.quizzes
    ensures r.status == 404 ==> r.body == Failure(NotFound)
    ensures r.status != 404 ==>
      && r.status == 200
      && r.body.Found?
      && r.body.questions == st.quizzes[id].questions
      && r.body.title == st.quizzes[id].title
      && r.body.quizId == st.quizzes[id].quizId
      && r.body.createdAt == st.quizzes[id].createdAt
  {
    if id !in st.quizzes then Reply(404, Failure(NotFound))
    else
      var q := st.quizzes[id];
      Reply(200, Found(q.quizId, q.title, q.createdAt, q.questions))
  }

  /** Reading back a quiz just created returns exactly what was sent. */
  lemma CreateThenGet(st: State, title: Option<string>, questions: Option<seq<Question>>, createdAt: string, updatedAt: string)
    requires Valid(st)
    ensures var r := Create(st, title, questions, createdAt, updatedAt);
      r.reply.status == 201 ==>
        Get(r.state, r.reply.body.quizId) == Reply(200, Found(r.reply.body.quizId, title.value, createdAt, questions.value))
  {
  }

  // ---------------------------------------------------------------------
  // PUT /api/quizzes/:quizId
  // ---------------------------------------------------------------------

  /** A missing quiz is a 404 with nothing written. Otherwise a truthy
      title replaces the title, questions replace the questions whenever
      the field is present (an empty array is truthy), the update time is
      refreshed, and the key keeps its place in the order. */
  function Put(st: State, id: string, title: Option<string>, questions: Option<seq<Question>>, updatedAt: string): (r: Outcome)
    ensures id !in st.quizzes <==> r.reply.status == 404
    ensures id !in st.quizzes ==> r == Outcome(st, Reply(404, Failure(NotFound)))
    ensures id in st.quizzes ==>
      var before := st.quizzes[id];
      && r.reply == Reply(200, Updated(id))
      && r.state.order == st.order && r.state.counter == st.counter
      && id in r.state.quizzes
      && SameExcept(r.state.quizzes, st.quizzes, id)
      && var after := r.state.quizzes[id];
      && after.quizId == before.quizId && after.createdAt == before.createdAt
      && after.updatedAt == updatedAt
      && (TitleGiven(title) ==> after.title == title.value)
      && (!TitleGiven(title) ==> after.title == before.title)
      && (questions.Some? ==> after.questions == questions.value)
      && (questions.None? ==> after.questions == before.questions)
  {
    if id !in st.quizzes then Outcome(st, Reply(404, Failure(NotFound)))
    else
      var q := st.quizzes[id];
      var q1 := if TitleGiven(title) then q.(title := title.value) else q;
      var q2 := if questions.Some? then q1.(questions := questions.value) else q1;
      var q3 := q2.(updatedAt := updatedAt);
      Outcome(st.(quizzes := st.quizzes[id := q3]), Reply(200, Updated(id)))
  }

  lemma PutKeepsValid(st: State, id: string, title: Option<string>, questions: Option<seq<Question>>, updatedAt: string)
    requires Valid(st)
    ensures Valid(Put(st, id, title, questions, updatedAt).state)
  {
  }

  /** A quiz read back after an update shows the merged fields. */
  lemma PutThenGet(st: State, id: string, title: Option<string>, questions: Option<seq<Question>>, updatedAt: string)
    requires id in st.quizzes
    ensures var g := Get(Put(st, id, title, questions, updatedAt).state, id);
      && g.status == 200
      && g.body.title == (if TitleGiven(title) then title.value else st.quizzes[id].title)
      && g.body.questions == (if questions.Some? then questions.value else st.quizzes[id].questions)
      && g.body.quizId == st.quizzes[id].quizId
      && g.body.createdAt == st.quizzes[id].createdAt
  {
  }

  // ---------------------------------------------------------------------
  // DELETE /api/quizzes/:quizId
  // ---------------------------------------------------------------------

  /** A missing quiz is a 404 with nothing written; otherwise exactly that
      key leaves the map and the order. */
  function Delete(st: State, id: string): (r: Outcome)
    ensures id !in st.quizzes <==> r.reply.status == 404
    ensures id !in st.quizzes ==> r == Outcome(st, Reply(404, Failure(NotFound)))
    ensures id in st.quizzes ==>
      && r.reply == Reply(200, Deleted)
      && id !in r.state.quizzes
      && SameExcept(r.state.quizzes, st.quizzes, id)
      && IsSubseq(r.state.order, st.order)
      && r.state.counter == st.counter
  {
    if id !in st.quizzes then Outcome(st, Reply(404, Failure(NotFound)))
    else Outcome(State(Remove(st.order, id), st.quizzes - {id}, st.counter), Reply(200, Deleted))
  }

  lemma DeleteKeepsValid(st: State, id: string)
    requires Valid(st)
    ensures Valid(Delete(st, id).state)
  {
    var s2 := Delete(st, id).state;
    forall k | k in s2.quizzes ensures s2.quizzes[k].quizId == k && Issued(k, s2.counter) {
      assert k in st.quizzes;
    }
  }

  /** After a delete, reading, updating and deleting the id all give a
      404, and the id is not handed out again: the counter never goes
      back, and no counter value from the current one on renders to it. */
  lemma DeleteThenGet(st: State, id: string, title: Option<string>, questions: Option<seq<Question>>, createdAt: string, updatedAt: string)
    requires Valid(st) && id in st.quizzes
    ensures var s2 := Delete(st, id).state;
      && Get(s2, id).status == 404
      && Put(s2, id, title, questions, updatedAt).reply.status == 404
      && Delete(s2, id).reply.status == 404
      && Create(s2, title, questions, createdAt, updatedAt).reply.body != Created(id)
      && forall c: nat :: c >= s2.counter ==> Decimal(c) != id
  {
    var s2 := Delete(st, id).state;
    var n: nat :| 1 <= n < st.counter && id == Decimal(n);
    forall c: nat | c >= s2.counter ensures Decimal(c) != id {
      if Decimal(c) == id {
        DecimalInjective(n, c);
      }
    }
  }

  // ---------------------------------------------------------------------
  // GET /api/quizzes
  // ---------------------------------------------------------------------

  function Summarize(q: Quiz): Summary {
    Summary(q.quizId, q.title, |q.questions|, q.createdAt, q.updatedAt)
  }

  /** The summaries of the quizzes stored under the keys of order, in
      that order. */
  function Summaries(order: seq<string>, quizzes: map<string, Quiz>): (r: seq<Summary>)
    ensures (forall k :: k in order ==> k in quizzes) ==>
      |r| == |order| && forall i :: 0 <= i < |order| ==> order[i] in quizzes && r[i] == Summarize(quizzes[order[i]])
  {
    if |order| == 0 then []
    else if order[0] in quizzes then [Summarize(quizzes[order[0]])] + Summaries(order[1..], quizzes)
    else Summaries(order[1..], quizzes)
  }

  /** Every stored quiz summarised, in insertion order. */
  function List(st: State): (r: Reply)
    ensures r.status == 200 && r.body.Listing?
    ensures (forall k :: k in st.order ==> k in st.quizzes) ==>
      && |r.body.quizzes| == |st.order|
      && forall i :: 0 <= i < |st.order| ==> r.body.quizzes[i] == Summarize(st.quizzes[st.order[i]])
  {
    Reply(200, Listing(Summaries(st.order, st.quizzes)))
  }

  /** The list has exactly one entry per stored quiz, each with the
      quiz's title, times and number of questions. */
  lemma ListOnePerQuiz(st: State)
    requires Valid(st)
    ensures var s := List(st).body.quizzes;
      && (forall k :: k in st.quizzes <==> exists i :: 0 <= i < |s| && s[i].quizId == k)
      && (forall i, j :: 0 <= i < j < |s| ==> s[i].quizId != s[j].quizId)
      && (forall i :: 0 <= i < |s| ==> s[i].quizId in st.quizzes && s[i] == Summarize(st.quizzes[s[i].quizId]))
  {
    var s := List(st).body.quizzes;
    assert |s| == |st.order|;
    forall i | 0 <= i < |s| ensures s[i].quizId == st.order[i] && st.order[i] in st.quizzes {
      assert st.order[i] in st.order;
    }
    forall k | k in st.quizzes ensures exists i :: 0 <= i < |s| && s[i].quizId == k {
      var i :| 0 <= i < |st.order| && st.order[i] == k;
      assert s[i].quizId == k;
    }
  }

  /** A create appends exactly one entry to the end of the list. */
  lemma CreateThenList(st: State, title: Option<string>, questions: Option<seq<Question>>, createdAt: string, updatedAt: string)
    requires Valid(st)
    ensures var r := Create(st, title, questions, createdAt, updatedAt);
      r.reply.status == 201 ==>
        List(r.state).body.quizzes == List(st).body.quizzes
          + [Summary(r.reply.body.quizId, title.value, |questions.value|, createdAt, updatedAt)]
  {
    var r := Create(st, title, questions, createdAt, updatedAt);
    if r.reply.status == 201 {
      CreateIssuesFreshId(st, title, questions, createdAt, updatedAt);
      var id := r.reply.body.quizId;
      ListAppend(st, r.state, id, r.state.quizzes[id]);
    }
  }

  /** Storing a new key at the end of the order appends its summary to
      the list. */
  lemma ListAppend(st: State, st': State, id: string, q: Quiz)
    requires forall k :: k in st.order ==> k in st.quizzes
    requires id !in st.quizzes
    requires st'.order == st.order + [id] && st'.quizzes == st.quizzes[id := q]
    ensures List(st').body.quizzes == List(st).body.quizzes + [Summarize(q)]
  {
    assert forall k :: k in st'.order ==> k in st'.quizzes;
    var a, b := List(st).body.quizzes, List(st').body.quizzes;
    forall i | 0 <= i < |a| ensures b[i] == a[i] {
      assert st'.order[i] == st.order[i] && st.order[i] in st.quizzes;
    }
  }
}

=== FILE: base.dfy ===
/** Small shared vocabulary: an optional value, integer min/max and the
    question record that travels through every part of the application. */
module Base {

  /** A value that may be absent: a missing request field, an undefined
      lookup result, a cache miss. */
  datatype Option<+T> = None | Some(value: T)

  function Min(a: int, b: int): int { if a <= b then a else b }

  function Max(a: int, b: int): int { if a >= b then a else b }

  /** No element occurs twice. */
  predicate NoDup<T(==)>(xs: seq<T>) {
    forall i, j :: 0 <= i < j < |xs| ==> xs[i] != xs[j]
  }

  /** a can be obtained from b by deleting elements: the elements of a
      occur in b in the same relative order. */
  predicate IsSubseq<T(==)>(a: seq<T>, b: seq<T>)
    decreases |b|
  {
    || |a| == 0
    || (|b| > 0 && ((a[0] == b[0] && IsSubseq(a[1..], b[1..])) || IsSubseq(a, b[1..])))
  }

  /** The first n elements of xs, or all of them when there are fewer. */
  function Take<T>(xs: seq<T>, n: nat): (r: seq<T>)
    ensures |r| == Min(n, |xs|)
    ensures r == xs[..|r|]
  {
    if n <= |xs| then xs[..n] else xs
  }

  /** xs without k, the rest in the same order. */
  function Remove<T(==,!new)>(xs: seq<T>, k: T): (r: seq<T>)
    ensures forall x :: x in r <==> x in xs && x != k
    ensures NoDup(xs) ==> NoDup(r)
    ensures IsSubseq(r, xs)
  {
    if |xs| == 0 then []
    else
      var rest := Remove(xs[1..], k);
      if xs[0] == k then
        assert |rest| > 0 ==> IsSubseq(rest, xs[1..]);
        rest
      else
        var r := [xs[0]] + rest;
        assert r[0] == xs[0] && r[1..] == rest;
        assert NoDup(xs) ==> NoDup(xs[1..]) && xs[0] !in xs[1..];
        r
  }

  lemma {:induction false} SubseqRefl<T>(a: seq<T>)
    ensures IsSubseq(a, a)
    decreases |a|
  {
    if |a| > 0 {
      SubseqRefl(a[1..]);
    }
  }

  /** Deleting elements twice is deleting elements once. */
  lemma {:induction false} SubseqTransitive<T>(a: seq<T>, b: seq<T>, c: seq<T>)
    requires IsSubseq(a, b) && IsSubseq(b, c)
    ensures IsSubseq(a, c)
    decreases |c|
  {
    if |a| > 0 {
      if |b| > 0 && b[0] == c[0] && IsSubseq(b[1..], c[1..]) {
        if a[0] == b[0] && IsSubseq(a[1..], b[1..]) {
          SubseqTransitive(a[1..], b[1..], c[1..]);
        } else {
          SubseqTransitive(a, b[1..], c[1..]);
        }
      } else {
        SubseqTransitive(a, b, c[1..]);
      }
    }
  }

  /** `xs.some(p)`: whether p holds for some element. */
  function AnyOf<T>(xs: seq<T>, p: T -> bool): (r: bool)
    ensures r <==> exists k :: 0 <= k < |xs| && p(xs[k])
  {
    if |xs| == 0 then false
    else
      var rest := AnyOf(xs[1..], p);
      assert forall k :: 1 <= k < |xs| ==> xs[k] == xs[1..][k - 1];
      p(xs[0]) || rest
  }

  /** A JSON title field is truthy when it is present and not the empty
      string; both stores test it before writing. */
  predicate TitleGiven(title: Option<string>) {
    title.Some? && |title.value| > 0
  }

  /** One quiz question as the client and the generator exchange it:
      the question text, its options (the JSON field may be absent) and
      the text of the correct option. The stores never look inside. */
  datatype Question = Question(text: string, options: Option<seq<string>>, correct: string)
}

=== FILE: generation.dfy ===
/** The deterministic logic around the AI calls of the back end
    (backend/server.js): how many questions or cards a request asks for,
    how a JSON array is salvaged from a chatty model reply, how placeholder
    options ("Option A") are detected, and the order in which the
    document-quiz endpoint applies all of these. The AI reply itself and
    `JSON.parse` are inputs. */
module Generation {
  import opened Base
  import opened JsText
  import KeyPhrases

  // ---------------------------------------------------------------------
  // Requested counts
  // ---------------------------------------------------------------------

  /** `Math.min(parseInt(field) || fallback, limit)`, exactly as the
      endpoints compute the number of questions (fallback 5, limit
      `config.quiz.maxQuestions`) and of cards (fallback 10, limit
      `config.flashcards.maxCards`). Nothing bounds it from below. */
  function RequestedCount(field: Option<string>, fallback: int, limit: int): (n: int)
    ensures n <= limit
    ensures n < limit ==> n == OrElse(ParseField(field), fallback)
  {
    Min(OrElse(ParseField(field), fallback), limit)
  }

  /** The count never exceeds the limit; a positive number sent by the
      client is honoured up to the limit; a field that is missing, has no
      leading digits or reads as zero falls back to the default. */
  lemma RequestedCountClamp(field: Option<string>, fallback: int, limit: int)
    ensures RequestedCount(field, fallback, limit) <= limit
    ensures forall v: nat :: v >= 1 && field == Some(Decimal(v)) ==> RequestedCount(field, fallback, limit) == Min(v, limit)
    ensures !Truthy(ParseField(field)) ==> RequestedCount(field, fallback, limit) == Min(fallback, limit)
  {
    forall v: nat | v >= 1 && field == Some(Decimal(v))
      ensures RequestedCount(field, fallback, limit) == Min(v, limit)
    {
      DecimalRoundTrip(v);
    }
  }

  /** The corrected count: the requested count brought into [1, limit]
      (for a limit of at least 1). */
  function ClampedCount(field: Option<string>, fallback: int, limit: int): (n: int)
    ensures n >= 1
    ensures limit >= 1 ==> n <= limit
    ensures RequestedCount(field, fallback, limit) >= 1 ==> n == RequestedCount(field, fallback, limit)
  {
    Max(1, RequestedCount(field, fallback, limit))
  }

  /** With the corrected count, `slice(0, count)` returns at most count
      questions, and exactly count when the model produced enough. */
  lemma ClampedCountBoundsResult(field: Option<string>, fallback: int, limit: int, qs: seq<Question>)
    ensures var n := ClampedCount(field, fallback, limit);
      && |SliceTo(qs, n)| <= n
      && (|qs| >= n ==> |SliceTo(qs, n)| == n)
  {
  }

  /** As written, a negative count such as `numQuestions = "-3"` passes
      both clamps whenever the limit is not below it, and `slice(0, -3)`
      then keeps all but the last three questions: ten generated
      questions come back as seven, more than the count asked for. */
  lemma NegativeCountOvershoots(v: nat, fallback: int, limit: int, qs: seq<Question>)
    requires v >= 1 && limit >= -(v as int) && |qs| >= v
    ensures RequestedCount(Some("-" + Decimal(v)), fallback, limit) == -(v as int)
    ensures |SliceTo(qs, RequestedCount(Some("-" + Decimal(v)), fallback, limit))| == |qs| - v
  {
    CountOfNegative(v, fallback, limit);
  }

  /** "-v" passes `|| fallback` and, under a limit not below it, `Math.min`. */
  lemma CountOfNegative(v: nat, fallback: int, limit: int)
    requires v >= 1 && limit >= -(v as int)
    ensures RequestedCount(Some("-" + Decimal(v)), fallback, limit) == -(v as int)
  {
    var field := Some("-" + Decimal(v));
    DecimalRoundTrip(v);
    CountOfNumber(field, -(v as int), fallback, limit);
  }

  /** A field that reads as a non-zero number within the limit is taken
      as it is. */
  lemma CountOfNumber(field: Option<string>, n: int, fallback: int, limit: int)
    requires field.Some? && ParseInt(field.value) == Int(n) && n != 0 && n <= limit
    ensures RequestedCount(field, fallback, limit) == n
  {
    assert ParseField(field) == Int(n);
  }

  // ---------------------------------------------------------------------
  // Salvaging a JSON array: `content.match(/\[[\s\S]*\]/)`
  // ---------------------------------------------------------------------

  /** s[i] opens and s[j] closes a bracket pair candidate. */
  predicate BracketSpan(s: string, i: int, j: int) {
    0 <= i < j < |s| && s[i] == '[' && s[j] == ']'
  }

  /** Index of the first c in s, or |s| when there is none. */
  function FirstIndexOf(s: string, c: char): (i: nat)
    ensures i <= |s|
    ensures forall k :: 0 <= k < i ==> s[k] != c
    ensures i < |s| ==> s[i] == c
  {
    if |s| == 0 || s[0] == c then 0 else 1 + FirstIndexOf(s[1..], c)
  }

  /** Index of the last c in s, or -1 when there is none. */
  function LastIndexOf(s: string, c: char): (i: int)
    ensures -1 <= i < |s|
    ensures forall k :: i < k < |s| ==> s[k] != c
    ensures i >= 0 ==> s[i] == c
  {
    if |s| == 0 then -1
    else if s[|s| - 1] == c then |s| - 1
    else LastIndexOf(s[..|s| - 1], c)
  }

  /** Where the greedy pattern `\[[\s\S]*\]` matches: from the first '['
      to the last ']' after it. The match exists exactly when some '['
      precedes some ']', and its span contains every such pair. */
  function SalvageSpan(s: string): (r: Option<(nat, nat)>)
    ensures r.None? <==> !exists i, j :: BracketSpan(s, i, j)
    ensures r.Some? ==> BracketSpan(s, r.value.0, r.value.1)
    ensures r.Some? ==> forall i, j :: BracketSpan(s, i, j) ==> r.value.0 <= i && j <= r.value.1
  {
    var i := FirstIndexOf(s, '[');
    var j := LastIndexOf(s, ']');
    SpanWithin(s, i, j);
    if i < j then
      assert BracketSpan(s, i, j);
      Some((i, j as nat))
    else None
  }

  lemma SpanWithin(s: string, i: nat, j: int)
    requires i == FirstIndexOf(s, '[') && j == LastIndexOf(s, ']')
    ensures forall a, b :: BracketSpan(s, a, b) ==> i <= a && b <= j
  {
  }

  /** The matched text, `jsonMatch[0]`. */
  function SalvageArray(s: string): (r: Option<string>)
    ensures r.None? <==> !exists i, j :: BracketSpan(s, i, j)
    ensures r.Some? ==> |r.value| >= 2 && r.value[0] == '[' && r.value[|r.value| - 1] == ']'
    ensures r.Some? ==> exists i, j :: BracketSpan(s, i, j) && r.value == s[i..j + 1]
  {
    match SalvageSpan(s)
    case None => None
    case Some((i, j)) => Some(s[i..j + 1])
  }

  /** The salvaged text lies between the first '[' of the reply and its
      last ']': nothing before it opens a bracket and nothing after it
      closes one. */
  lemma SalvageIsFirstToLast(s: string)
    requires SalvageArray(s).Some?
    ensures var i, j := SalvageSpan(s).value.0, SalvageSpan(s).value.1;
      && SalvageArray(s).value == s[i..j + 1]
      && (forall k :: 0 <= k < i ==> s[k] != '[')
      && (forall k :: j < k < |s| ==> s[k] != ']')
  {
  }

  /** What `JSON.parse` makes of a text, as far as the handler cares. */
  datatype Parsed = SyntaxError | NotAnArray | Items(questions: seq<Question>)

  /** Why a generation request failed. */
  datatype Cause =
    | NoFile                   // 400 'No file provided'
    | ExtractionFailed(reason: string) // 400 'Failed to extract text from document: ' + reason
    | EmptyDocument            // 400 'Document appears to be empty'
    | KeyMissing               // 500 'Groq API key not configured'
    | AiRequestFailed          // 500, the HTTP client's message
    | NoJsonArray              // 500 'Failed to parse AI response as JSON'
    | SalvageUnparsable        // 500, the SyntaxError of the second JSON.parse
    | NotAList                 // 500, the TypeError of calling `some` on a non-array
    | PlaceholderOptions       // 500 'Generated questions contain placeholder options. Please try again.'

  datatype Parse = Parse(questions: seq<Question>) | Unparsed(cause: Cause)

  /** Parse the reply; if that throws, parse the salvaged array instead;
      if there is none, give up. A value that is not an array fails later,
      when the handler calls `some` on it. */
  function ParseReply(content: string, parse: string -> Parsed): (r: Parse)
    ensures r.Parse? ==> parse(content).Items? || (SalvageArray(content).Some? && parse(SalvageArray(content).value).Items?)
    ensures parse(content).Items? ==> r == Parse(parse(content).questions)
    ensures r == Unparsed(NoJsonArray) <==> parse(content).SyntaxError? && !exists i, j :: BracketSpan(content, i, j)
    ensures parse(content).SyntaxError? && SalvageArray(content).Some? && parse(SalvageArray(content).value).Items? ==>
      r == Parse(parse(SalvageArray(content).value).questions)
    ensures r == Unparsed(NotAList) <==>
      || parse(content).NotAnArray?
      || (parse(content).SyntaxError? && SalvageArray(content).Some? && parse(SalvageArray(content).value).NotAnArray?)
    ensures r == Unparsed(SalvageUnparsable) <==>
      parse(content).SyntaxError? && SalvageArray(content).Some? && parse(SalvageArray(content).value).SyntaxError?
  {
    match parse(content)
    case Items(qs) => Parse(qs)
    case NotAnArray => Unparsed(NotAList)
    case SyntaxError =>
      match SalvageArray(content)
      case None => Unparsed(NoJsonArray)
      case Some(t) =>
        match parse(t)
        case Items(qs) => Parse(qs)
        case NotAnArray => Unparsed(NotAList)
        case SyntaxError => Unparsed(SalvageUnparsable)
  }

  // ---------------------------------------------------------------------
  // Placeholder options: `/^option\s+[a-d]$/i.test(opt.trim())`
  // ---------------------------------------------------------------------

  /** ASCII lower-casing; the case-insensitive flag of a non-Unicode
      pattern folds only ASCII letters onto the pattern's letters. */
  function LowerAscii(c: char): char {
    if 'A' <= c <= 'Z' then (c as int + 32) as char else c
  }

  predicate IsOptionLetter(c: char) {
    c == 'a' || c == 'b' || c == 'c' || c == 'd' || c == 'A' || c == 'B' || c == 'C' || c == 'D'
  }

  const Word: string := "option"

  /** Each character of s lower-cased as `LowerAscii` does. */
  function LowerAll(s: string): (r: string)
    ensures |r| == |s|
  {
    seq(|s|, k requires 0 <= k < |s| => LowerAscii(s[k]))
  }

  /** The shape the pattern describes: the word "option" in any ASCII
      case, one or more white-space characters, one letter a-d in either
      case, and nothing else. */
  ghost predicate PlaceholderShape(t: string) {
    && |t| >= 8
    && LowerAll(t[..6]) == Word
    && AllSpace(t[6..|t| - 1])
    && IsOptionLetter(t[|t| - 1])
  }

  /** The pattern as an automaton reading t from index i: states 0-5 read
      the letters of "option", state 6 the first white space, state 7
      further white space or the final letter, state 8 the end of input. */
  function Run(t: string, i: nat, state: nat): bool
    requires i <= |t| && state <= 8
    decreases |t| - i
  {
    if state <= 5 then i < |t| && LowerAscii(t[i]) == Word[state] && Run(t, i + 1, state + 1)
    else if state == 6 then i < |t| && IsSpace(t[i]) && Run(t, i + 1, 7)
    else if state == 7 then
      i < |t| && (if IsSpace(t[i]) then Run(t, i + 1, 7) else IsOptionLetter(t[i]) && Run(t, i + 1, 8))
    else i == |t|
  }

  /** Whether one option is a placeholder. */
  predicate IsPlaceholder(opt: string) {
    Run(Trim(opt), 0, 0)
  }

  lemma {:induction false} RunSpaces(t: string, i: nat)
    requires i <= |t|
    ensures Run(t, i, 7) <==> i < |t| && AllSpace(t[i..|t| - 1]) && IsOptionLetter(t[|t| - 1])
    decreases |t| - i
  {
    if i < |t| {
      if IsSpace(t[i]) {
        RunSpaces(t, i + 1);
        if i + 1 < |t| {
          assert t[i..|t| - 1] == [t[i]] + t[i + 1..|t| - 1];
        }
      } else if i < |t| - 1 {
        assert t[i..|t| - 1][0] == t[i];
      }
    }
  }

  lemma {:induction false} RunWord(t: string, i: nat, state: nat)
    requires i <= |t| && state <= 5
    ensures Run(t, i, state) <==>
      && i + 6 - state <= |t|
      && LowerAll(t[i..i + 6 - state]) == Word[state..]
      && Run(t, i + 6 - state, 6)
    decreases 5 - state
  {
    var n := 6 - state;
    if i + n <= |t| {
      LowerAllCons(t, i, i + n, Word[state..]);
      assert Word[state..][1..] == Word[state + 1..];
      if state < 5 {
        RunWord(t, i + 1, state + 1);
      } else {
        assert LowerAll(t[i + 1..i + 1]) == [] == Word[state + 1..];
      }
    } else if state < 5 && i < |t| {
      RunWord(t, i + 1, state + 1);
    }
  }

  /** Lower-casing a slice matches a word exactly when its first character
      matches the word's first and the rest matches the rest. */
  lemma LowerAllCons(t: string, i: nat, j: nat, w: string)
    requires i < j <= |t| && |w| == j - i
    ensures LowerAll(t[i..j]) == w <==> LowerAscii(t[i]) == w[0] && LowerAll(t[i + 1..j]) == w[1..]
  {
    var whole, tail := LowerAll(t[i..j]), LowerAll(t[i + 1..j]);
    assert forall k :: 0 <= k < |tail| ==> tail[k] == whole[k + 1];
    if LowerAscii(t[i]) == w[0] && tail == w[1..] {
      assert forall k :: 0 <= k < |w| ==> whole[k] == w[k];
    }
  }

  /** The automaton accepts exactly the placeholder shape. */
  lemma PlaceholderRunIsShape(t: string)
    ensures Run(t, 0, 0) <==> PlaceholderShape(t)
  {
    RunWord(t, 0, 0);
    assert Word[0..] == Word;
    if |t| >= 8 {
      RunSpaces(t, 7);
      assert Run(t, 6, 6) <==> IsSpace(t[6]) && Run(t, 7, 7);
      var mid := t[6..|t| - 1];
      assert mid[0] == t[6] && mid[1..] == t[7..|t| - 1];
      AllSpaceCons(mid);
    } else if |t| == 7 {
      RunSpaces(t, 7);
      assert !Run(t, 6, 6);
    } else if |t| == 6 {
      assert !Run(t, 6, 6);
    }
  }

  /** `(q.options || [])`: a question without options has none to check. */
  function OptionsOf(q: Question): seq<string> {
    match q.options
    case None => []
    case Some(opts) => opts
  }

  /** `opts.some(opt => /^option\s+[a-d]$/i.test(opt.trim()))`. */
  function AnyPlaceholder(opts: seq<string>): (r: bool)
    ensures r <==> exists j :: 0 <= j < |opts| && IsPlaceholder(opts[j])
  {
    AnyOf(opts, IsPlaceholder)
  }

  /** `questions.some(q => (q.options || []).some(...))`. */
  function HasPlaceholders(qs: seq<Question>): (r: bool)
    ensures r <==> exists i, j :: 0 <= i < |qs| && 0 <= j < |OptionsOf(qs[i])| && IsPlaceholder(OptionsOf(qs[i])[j])
  {
    AnyOf(qs, q => AnyPlaceholder(OptionsOf(q)))
  }

  /** A question list accepted by the check holds no option that, once
      trimmed, reads "option", white space and a letter a-d. */
  lemma AcceptedHasNoPlaceholderShape(qs: seq<Question>, i: nat, j: nat)
    requires !HasPlaceholders(qs)
    requires i < |qs| && j < |OptionsOf(qs[i])|
    ensures !PlaceholderShape(Trim(OptionsOf(qs[i])[j]))
  {
    PlaceholderRunIsShape(Trim(OptionsOf(qs[i])[j]));
  }

  // ---------------------------------------------------------------------
  // POST /api/generate-quiz-from-document, after the upload is parsed
  // ---------------------------------------------------------------------

  /** The uploaded file: its name and what text extraction made of it. */
  datatype Extraction = Extracted(text: string) | Unreadable(reason: string)
  datatype Upload = Upload(originalName: string, extraction: Extraction)

  datatype DocRequest = DocRequest(file: Option<Upload>, numQuestions: Option<string>)

  datatype Config = Config(maxQuestions: int, maxCharactersPerDocument: int)

  datatype DocBody =
    | Failure(cause: Cause)
    | Generated(questions: seq<Question>, documentName: string, charactersAnalyzed: nat, documentPhrasesUsed: nat)

  datatype DocReply = DocReply(status: int, body: DocBody)

  /** The document-quiz endpoint with the AI reply given, once the
      number of questions is fixed: `apiKeySet` says whether the key is
      configured and `reply` is the model's message content, or None when
      the HTTP call failed. */
  function DocumentQuiz(req: DocRequest, config: Config, apiKeySet: bool, reply: Option<string>,
                        parse: string -> Parsed, count: int): (r: DocReply)
    ensures r.status == 200 || r.status == 400 || r.status == 500
    ensures r.status == 200 <==> r.body.Generated?
  {
    match req.file
    case None => DocReply(400, Failure(NoFile))
    case Some(upload) =>
      match upload.extraction
      case Unreadable(reason) => DocReply(400, Failure(ExtractionFailed(reason)))
      case Extracted(text) =>
        if |text| == 0 then DocReply(400, Failure(EmptyDocument))
        else
          var phrases := KeyPhrases.ExtractKeyPhrases(text, count * 2);
          var limited := SubstringTo(text, config.maxCharactersPerDocument);
          if !apiKeySet then DocReply(500, Failure(KeyMissing))
          else
            match reply
            case None => DocReply(500, Failure(AiRequestFailed))
            case Some(content) =>
              match ParseReply(content, parse)
              case Unparsed(cause) => DocReply(500, Failure(cause))
              case Parse(qs) =>
                if HasPlaceholders(qs) then DocReply(500, Failure(PlaceholderOptions))
                else DocReply(200, Generated(SliceTo(qs, count), upload.originalName, |limited|, |phrases|))
  }

  /** `POST /api/generate-quiz-from-document` as written: the count is
      `RequestedCount`, with no lower bound. */
  function QuizFromDocument(req: DocRequest, config: Config, apiKeySet: bool, reply: Option<string>,
                            parse: string -> Parsed): (r: DocReply)
    ensures r.status == 200 || r.status == 400 || r.status == 500
    ensures r.status == 200 <==> r.body.Generated?
  {
    DocumentQuiz(req, config, apiKeySet, reply, parse, RequestedCount(req.numQuestions, 5, config.maxQuestions))
  }

  /** The endpoint with the corrected count `ClampedCount`. */
  function QuizFromDocumentClamped(req: DocRequest, config: Config, apiKeySet: bool, reply: Option<string>,
                                   parse: string -> Parsed): (r: DocReply)
    ensures r.status == 200 || r.status == 400 || r.status == 500
    ensures r.status == 200 <==> r.body.Generated?
  {
    DocumentQuiz(req, config, apiKeySet, reply, parse, ClampedCount(req.numQuestions, 5, config.maxQuestions))
  }

  /** A 200 reply comes from a readable, non-empty document and a parsed
      reply without placeholders; it carries `slice(0, count)` of the
      parsed questions, the phrases of `extractKeyPhrases(text, 2 * count)`
      and the characters kept by `substring`. */
  lemma DocumentQuizSuccess(req: DocRequest, config: Config, apiKeySet: bool, reply: Option<string>,
                            parse: string -> Parsed, count: int)
    requires DocumentQuiz(req, config, apiKeySet, reply, parse, count).status == 200
    ensures var r := DocumentQuiz(req, config, apiKeySet, reply, parse, count);
      && req.file.Some? && req.file.value.extraction.Extracted?
      && |req.file.value.extraction.text| > 0
      && apiKeySet && reply.Some?
      && ParseReply(reply.value, parse).Parse?
      && !HasPlaceholders(ParseReply(reply.value, parse).questions)
      && r.body == Generated(SliceTo(ParseReply(reply.value, parse).questions, count), req.file.value.originalName,
                             |SubstringTo(req.file.value.extraction.text, config.maxCharactersPerDocument)|,
                             |KeyPhrases.ExtractKeyPhrases(req.file.value.extraction.text, count * 2)|)
  {
  }

  /** The converse of `DocumentQuizSuccess`: a readable, non-empty
      document, a configured key and a reply that parses to a list without
      placeholders give the 200 with that body. */
  lemma DocumentQuizGenerates(req: DocRequest, config: Config, apiKeySet: bool, reply: Option<string>,
                              parse: string -> Parsed, count: int)
    requires req.file.Some? && req.file.value.extraction.Extracted?
    requires |req.file.value.extraction.text| > 0
    requires apiKeySet && reply.Some? && ParseReply(reply.value, parse).Parse?
    requires !HasPlaceholders(ParseReply(reply.value, parse).questions)
    ensures var r := DocumentQuiz(req, config, apiKeySet, reply, parse, count);
      && r.status == 200
      && r.body == Generated(SliceTo(ParseReply(reply.value, parse).questions, count), req.file.value.originalName,
                             |SubstringTo(req.file.value.extraction.text, config.maxCharactersPerDocument)|,
                             |KeyPhrases.ExtractKeyPhrases(req.file.value.extraction.text, count * 2)|)
  {
  }

  /** The endpoint as written answers 200 exactly when the document is
      readable and non-empty, the key is configured, the model replied and
      the reply parses to a list without placeholders. */
  lemma QuizFromDocumentSucceedsIff(req: DocRequest, config: Config, apiKeySet: bool, reply: Option<string>,
                                    parse: string -> Parsed)
    ensures QuizFromDocument(req, config, apiKeySet, reply, parse).status == 200 <==>
      && req.file.Some? && req.file.value.extraction.Extracted?
      && |req.file.value.extraction.text| > 0
      && apiKeySet && reply.Some? && ParseReply(reply.value, parse).Parse?
      && !HasPlaceholders(ParseReply(reply.value, parse).questions)
  {
    var count := RequestedCount(req.numQuestions, 5, config.maxQuestions);
    if QuizFromDocument(req, config, apiKeySet, reply, parse).status == 200 {
      DocumentQuizSuccess(req, config, apiKeySet, reply, parse, count);
    } else if && req.file.Some? && req.file.value.extraction.Extracted?
              && |req.file.value.extraction.text| > 0
              && apiKeySet && reply.Some? && ParseReply(reply.value, parse).Parse?
              && !HasPlaceholders(ParseReply(reply.value, parse).questions) {
      DocumentQuizGenerates(req, config, apiKeySet, reply, parse, count);
    }
  }

  /** A successful reply of the endpoint as written. Its questions are
      taken in order from the front of the parsed list, none with a
      placeholder option, and at most the configured number of characters
      was analysed. For a count of at least one there are at most count
      questions and at most twice that many phrases. For a negative count
      no phrase is used and all but the last -count questions are kept,
      however many that is. */
  lemma QuizFromDocumentSuccess(req: DocRequest, config: Config, apiKeySet: bool, reply: Option<string>,
                                parse: string -> Parsed)
    requires QuizFromDocument(req, config, apiKeySet, reply, parse).status == 200
    ensures var r := QuizFromDocument(req, config, apiKeySet, reply, parse);
      var count := RequestedCount(req.numQuestions, 5, config.maxQuestions);
      && r.body.Generated?
      && req.file.Some? && req.file.value.extraction.Extracted?
      && |req.file.value.extraction.text| > 0
      && apiKeySet && reply.Some?
      && ParseReply(reply.value, parse).Parse?
      && var qs := ParseReply(reply.value, parse).questions;
      && r.body.questions == qs[..|r.body.questions|]
      && !HasPlaceholders(r.body.questions)
      && r.body.charactersAnalyzed <= Max(0, config.maxCharactersPerDocument)
      && (count >= 0 ==> |r.body.questions| == Min(count, |qs|) && r.body.documentPhrasesUsed <= 2 * count)
      && (count < 0 ==> |r.body.questions| == Max(0, |qs| + count) && r.body.documentPhrasesUsed == 0)
  {
    var count := RequestedCount(req.numQuestions, 5, config.maxQuestions);
    DocumentQuizSuccess(req, config, apiKeySet, reply, parse, count);
    var qs := ParseReply(reply.value, parse).questions;
    PrefixKeepsNoPlaceholder(qs, SliceTo(qs, count));
  }

  /** As written, a request for "-v" questions that succeeds returns all
      but the last v generated questions: more than the configured maximum
      whenever the model produced more than that maximum plus v. */
  lemma QuizFromDocumentOvershoots(req: DocRequest, config: Config, apiKeySet: bool, reply: Option<string>,
                                   parse: string -> Parsed, v: nat)
    requires v >= 1 && config.maxQuestions >= -(v as int)
    requires req.numQuestions == Some("-" + Decimal(v))
    requires QuizFromDocument(req, config, apiKeySet, reply, parse).status == 200
    ensures var r := QuizFromDocument(req, config, apiKeySet, reply, parse);
      var qs := ParseReply(reply.value, parse).questions;
      && |r.body.questions| == Max(0, |qs| - v)
      && (|qs| > config.maxQuestions + v ==> |r.body.questions| > config.maxQuestions)
  {
    var n := -(v as int);
    assert RequestedCount(req.numQuestions, 5, config.maxQuestions) == n by {
      CountOfNegative(v, 5, config.maxQuestions);
    }
    DocumentQuizSuccess(req, config, apiKeySet, reply, parse, n);
  }

  /** A successful reply of the corrected endpoint carries between one and
      the configured maximum of questions (never more than the model
      produced, and exactly the requested number when it produced enough),
      taken in order from the front of the parsed list, none with a
      placeholder option; at most twice that many document phrases were
      used, and at most the configured number of characters was analysed. */
  lemma QuizFromDocumentClampedSuccess(req: DocRequest, config: Config, apiKeySet: bool, reply: Option<string>,
                                       parse: string -> Parsed)
    requires QuizFromDocumentClamped(req, config, apiKeySet, reply, parse).status == 200
    ensures var r := QuizFromDocumentClamped(req, config, apiKeySet, reply, parse);
      var count := ClampedCount(req.numQuestions, 5, config.maxQuestions);
      && r.body.Generated?
      && reply.Some? && ParseReply(reply.value, parse).Parse?
      && var qs := ParseReply(reply.value, parse).questions;
      && r.body.questions == qs[..|r.body.questions|]
      && |r.body.questions| == Min(count, |qs|)
      && (config.maxQuestions >= 1 ==> |r.body.questions| <= config.maxQuestions)
      && !HasPlaceholders(r.body.questions)
      && r.body.documentPhrasesUsed <= 2 * count
      && r.body.charactersAnalyzed <= Max(0, config.maxCharactersPerDocument)
  {
    var count := ClampedCount(req.numQuestions, 5, config.maxQuestions);
    DocumentQuizSuccess(req, config, apiKeySet, reply, parse, count);
    var qs := ParseReply(reply.value, parse).questions;
    PrefixKeepsNoPlaceholder(qs, SliceTo(qs, count));
  }

  /** A prefix of a list without placeholders has none either. */
  lemma PrefixKeepsNoPlaceholder(qs: seq<Question>, p: seq<Question>)
    requires !HasPlaceholders(qs) && |p| <= |qs| && p == qs[..|p|]
    ensures !HasPlaceholders(p)
  {
    forall i, j | 0 <= i < |p| && 0 <= j < |OptionsOf(p[i])| ensures !IsPlaceholder(OptionsOf(p[i])[j]) {
      assert p[i] == qs[i];
    }
  }

  /** The endpoint answers 400 exactly for a missing file, an unreadable
      file or an empty document, and checks them in that order. */
  lemma QuizFromDocumentBadInput(req: DocRequest, config: Config, apiKeySet: bool, reply: Option<string>,
                                 parse: string -> Parsed)
    ensures var r := QuizFromDocument(req, config, apiKeySet, reply, parse);
      && (r.status == 400 <==>
            || req.file.None?
            || req.file.value.extraction.Unreadable?
            || |req.file.value.extraction.text| == 0)
      && (req.file.None? ==> r.body == Failure(NoFile))
      && (r.status != 400 ==> r.status == 200 || r.status == 500)
  {
  }
}

=== FILE: js_text.dfy ===
/** The pieces of JavaScript's string and array built-ins that the server,
    the worker and the service worker rely on, written out so that their
    edge cases are explicit: `trim`, `split(/[.!?]+/)`, `includes`,
    `parseInt`, `String(n)` for a counter, `slice(0, end)` and
    `substring(0, end)`. */
module JsText {
  import opened Base

  // ---------------------------------------------------------------------
  // White space and trimming
  // ---------------------------------------------------------------------

  /** ECMAScript WhiteSpace and LineTerminator code points: what `trim`
      strips, what `parseInt` skips and what the class `\s` matches. */
  predicate IsSpace(c: char) {
    || c == '\t' || c == '\n' || c == '\U{000B}' || c == '\U{000C}' || c == '\r'
    || c == ' ' || c == '\U{00A0}' || c == '\U{1680}'
    || ('\U{2000}' <= c <= '\U{200A}')
    || c == '\U{2028}' || c == '\U{2029}' || c == '\U{202F}' || c == '\U{205F}'
    || c == '\U{3000}' || c == '\U{FEFF}'
  }

  predicate AllSpace(s: string) {
    forall k :: 0 <= k < |s| ==> IsSpace(s[k])
  }

  lemma AllSpaceCons(s: string)
    requires |s| > 0
    ensures AllSpace(s) <==> IsSpace(s[0]) && AllSpace(s[1..])
  {
    assert forall k :: 1 <= k < |s| ==> s[k] == s[1..][k - 1];
  }

  /** Neither end of s is white space. */
  predicate Trimmed(s: string) {
    |s| == 0 || (!IsSpace(s[0]) && !IsSpace(s[|s| - 1]))
  }

  /** r is what remains of s once the white space at both ends is cut
      away: s is some white space, then r, then some white space. */
  ghost predicate IsTrimOf(r: string, s: string) {
    Trimmed(r) && exists i, j :: SpaceAround(s, i, j) && s[i..j] == r
  }

  /** s[..i] and s[j..] are white space. */
  predicate SpaceAround(s: string, i: int, j: int) {
    0 <= i <= j <= |s| && AllSpace(s[..i]) && AllSpace(s[j..])
  }

  lemma SpaceInPrefix(s: string, i: nat, m: nat)
    requires i <= |s| && AllSpace(s[..i])
    ensures m < i ==> IsSpace(s[m])
  {
    if m < i { assert s[..i][m] == s[m]; }
  }

  lemma SpaceInSuffix(s: string, j: nat, m: nat)
    requires j <= |s| && AllSpace(s[j..])
    ensures j <= m < |s| ==> IsSpace(s[m])
  {
    if j <= m < |s| { assert s[j..][m - j] == s[m]; }
  }

  /** `trimStart`: drops the leading white space and nothing else. */
  function TrimStart(s: string): (r: string)
    ensures |r| <= |s| && r == s[|s| - |r|..]
    ensures AllSpace(s[..|s| - |r|])
    ensures |r| > 0 ==> !IsSpace(r[0])
  {
    if |s| > 0 && IsSpace(s[0]) then
      var r := TrimStart(s[1..]);
      assert s[1..][|s| - 1 - |r|..] == s[|s| - |r|..];
      assert forall k :: 1 <= k < |s| - |r| ==> s[k] == s[1..][..|s| - 1 - |r|][k - 1];
      r
    else
      s
  }

  /** `trimEnd`: drops the trailing white space and nothing else. */
  function TrimEnd(s: string): (r: string)
    ensures |r| <= |s| && r == s[..|r|]
    ensures AllSpace(s[|r|..])
    ensures |r| > 0 ==> !IsSpace(r[|r| - 1])
  {
    if |s| > 0 && IsSpace(s[|s| - 1]) then
      var r := TrimEnd(s[..|s| - 1]);
      assert s[..|s| - 1][..|r|] == s[..|r|];
      assert forall k :: |r| <= k < |s| - 1 ==> s[k] == s[..|s| - 1][|r|..][k - |r|];
      r
    else
      s
  }

  /** `String.prototype.trim`. */
  function Trim(s: string): (r: string)
    ensures IsTrimOf(r, s)
  {
    TrimSpec(s);
    TrimEnd(TrimStart(s))
  }

  lemma TrimSpec(s: string)
    ensures IsTrimOf(TrimEnd(TrimStart(s)), s)
  {
    var t := TrimStart(s);
    var r := TrimEnd(t);
    var i := |s| - |t|;
    assert Trimmed(r) by {
      if |r| > 0 {
        assert r[0] == t[0];
      }
    }
    assert SpaceAround(s, i, i + |r|) by {
      assert s[i + |r|..] == t[|r|..];
    }
    assert s[i..i + |r|] == r by {
      assert t == s[i..];
    }
  }

  /** There is only one way to trim a string, so `Trim` is fully
      determined by `IsTrimOf`. */
  lemma TrimIsUnique(s: string, r1: string, r2: string)
    requires IsTrimOf(r1, s) && IsTrimOf(r2, s)
    ensures r1 == r2
  {
    var i1, j1 :| SpaceAround(s, i1, j1) && s[i1..j1] == r1;
    var i2, j2 :| SpaceAround(s, i2, j2) && s[i2..j2] == r2;
    TrimCoresAgree(s, i1, j1, i2, j2);
  }

  /** Two decompositions of s into space, trimmed core, space have the
      same core. */
  lemma TrimCoresAgree(s: string, i1: nat, j1: nat, i2: nat, j2: nat)
    requires SpaceAround(s, i1, j1) && Trimmed(s[i1..j1])
    requires SpaceAround(s, i2, j2) && Trimmed(s[i2..j2])
    ensures s[i1..j1] == s[i2..j2]
  {
    if i1 < j1 {
      TrimSpan(s, i1, j1, i2, j2);
      TrimSpan(s, i2, j2, i1, j1);
    } else if i2 < j2 {
      TrimSpan(s, i2, j2, i1, j1);
    }
  }

  /** A trimmed, non-empty span of s cannot start before, or end after,
      the core of any other decomposition of s into space, core, space. */
  lemma TrimSpan(s: string, i1: nat, j1: nat, i2: nat, j2: nat)
    requires i1 < j1 <= |s| && Trimmed(s[i1..j1])
    requires SpaceAround(s, i2, j2)
    ensures i2 <= i1 && j1 <= j2
  {
    assert s[i1] == s[i1..j1][0];
    assert s[j1 - 1] == s[i1..j1][j1 - i1 - 1];
    SpaceInPrefix(s, i2, i1);
    SpaceInSuffix(s, j2, j1 - 1);
  }

  // ---------------------------------------------------------------------
  // Splitting on sentence punctuation: `split(/[.!?]+/)`
  // ---------------------------------------------------------------------

  predicate IsDelim(c: char) { c == '.' || c == '!' || c == '?' }

  predicate NoDelim(s: string) {
    forall k :: 0 <= k < |s| ==> !IsDelim(s[k])
  }

  predicate AllDelim(s: string) {
    forall k :: 0 <= k < |s| ==> IsDelim(s[k])
  }

  /** Length of the run of delimiters at the front of s. */
  function DelimRun(s: string): (n: nat)
    ensures n <= |s|
    ensures n < |s| ==> !IsDelim(s[n])
    ensures |s| > 0 && IsDelim(s[0]) ==> n > 0
  {
    if |s| > 0 && IsDelim(s[0]) then 1 + DelimRun(s[1..]) else 0
  }

  /** Everything in the run `DelimRun` measures is a delimiter. */
  lemma {:induction false} DelimRunIsRun(s: string)
    ensures AllDelim(s[..DelimRun(s)])
    decreases |s|
  {
    if |s| > 0 && IsDelim(s[0]) {
      DelimRunIsRun(s[1..]);
      var n := DelimRun(s);
      forall k | 0 <= k < n ensures IsDelim(s[..n][k]) {
        if k > 0 {
          assert s[..n][k] == s[1..][..n - 1][k - 1];
        }
      }
    }
  }

  /** `s.split(/[.!?]+/)`: the pieces between maximal runs of delimiters,
      including the empty pieces before a leading and after a trailing run.
      A delimiter run closes the current piece; any other character joins
      the piece being built. */
  function Split(s: string): (r: seq<string>)
    ensures |r| >= 1
    decreases |s|
  {
    if |s| == 0 then [""]
    else if IsDelim(s[0]) then [""] + Split(s[DelimRun(s)..])
    else
      var r := Split(s[1..]);
      [[s[0]] + r[0]] + r[1..]
  }

  /** The delimiter runs that `Split` cuts out, in order. */
  function Separators(s: string): seq<string>
    decreases |s|
  {
    if |s| == 0 then []
    else if IsDelim(s[0]) then [s[..DelimRun(s)]] + Separators(s[DelimRun(s)..])
    else Separators(s[1..])
  }

  /** Puts the pieces back together with the separators between them. */
  function Interleave(pieces: seq<string>, seps: seq<string>): string
    requires |pieces| == |seps| + 1
  {
    if |seps| == 0 then pieces[0]
    else pieces[0] + seps[0] + Interleave(pieces[1..], seps[1..])
  }

  lemma InterleaveHead(c: char, pieces: seq<string>, seps: seq<string>)
    requires |pieces| == |seps| + 1
    ensures Interleave([[c] + pieces[0]] + pieces[1..], seps) == [c] + Interleave(pieces, seps)
  {
    var p := [[c] + pieces[0]] + pieces[1..];
    if |seps| > 0 {
      assert p[1..] == pieces[1..];
    }
  }

  /** There is one more piece than there are separators. */
  lemma {:induction false} SplitCount(s: string)
    ensures |Split(s)| == |Separators(s)| + 1
    decreases |s|
  {
    if |s| > 0 {
      if IsDelim(s[0]) { SplitCount(s[DelimRun(s)..]); } else { SplitCount(s[1..]); }
    }
  }

  /** No piece of the split holds a delimiter. */
  lemma {:induction false} SplitPiecesClean(s: string)
    ensures forall k :: 0 <= k < |Split(s)| ==> NoDelim(Split(s)[k])
    decreases |s|
  {
    if |s| > 0 {
      var r := Split(s);
      if IsDelim(s[0]) {
        var t := Split(s[DelimRun(s)..]);
        SplitPiecesClean(s[DelimRun(s)..]);
        forall k | 0 <= k < |r| ensures NoDelim(r[k]) {
          if k > 0 { assert r[k] == t[k - 1]; }
        }
      } else {
        var t := Split(s[1..]);
        SplitPiecesClean(s[1..]);
        forall k | 0 <= k < |r| ensures NoDelim(r[k]) {
          if k > 0 { assert r[k] == t[k]; }
          else {
            forall j | 0 <= j < |r[0]| ensures !IsDelim(r[0][j]) {
              if j > 0 { assert r[0][j] == t[0][j - 1]; }
            }
          }
        }
      }
    }
  }

  /** Every separator is a non-empty run of delimiters. */
  lemma {:induction false} SeparatorsAreRuns(s: string)
    ensures forall k :: 0 <= k < |Separators(s)| ==> |Separators(s)[k]| > 0 && AllDelim(Separators(s)[k])
    decreases |s|
  {
    if |s| > 0 {
      var seps := Separators(s);
      if IsDelim(s[0]) {
        var n := DelimRun(s);
        var t := Separators(s[n..]);
        SeparatorsAreRuns(s[n..]);
        DelimRunIsRun(s);
        forall k | 0 <= k < |seps| ensures |seps[k]| > 0 && AllDelim(seps[k]) {
          if k > 0 { assert seps[k] == t[k - 1]; }
        }
      } else {
        SeparatorsAreRuns(s[1..]);
      }
    }
  }

  /** `Split` loses nothing: the pieces, rejoined with non-empty runs of
      delimiters, give back the original text. With `SplitPiecesClean`
      and `SplitRunsMaximal` this pins the split down completely. */
  lemma {:induction false} SplitReassembles(s: string)
    ensures |Split(s)| == |Separators(s)| + 1
    ensures forall k :: 0 <= k < |Separators(s)| ==> |Separators(s)[k]| > 0 && AllDelim(Separators(s)[k])
    ensures Interleave(Split(s), Separators(s)) == s
    decreases |s|
  {
    SplitCount(s);
    SeparatorsAreRuns(s);
    if |s| > 0 {
      if IsDelim(s[0]) {
        var n := DelimRun(s);
        SplitReassembles(s[n..]);
        var r, seps := Split(s), Separators(s);
        assert r[1..] == Split(s[n..]) && seps[1..] == Separators(s[n..]);
        assert Interleave(r, seps) == "" + s[..n] + s[n..];
        assert s[..n] + s[n..] == s;
      } else {
        SplitReassembles(s[1..]);
        InterleaveHead(s[0], Split(s[1..]), Separators(s[1..]));
        assert [s[0]] + s[1..] == s;
      }
    }
  }

  /** The runs are cut whole: only the first and the last piece can be
      empty, so no two separators are adjacent. */
  lemma {:induction false} SplitRunsMaximal(s: string)
    ensures forall k :: 0 < k < |Split(s)| - 1 ==> |Split(s)[k]| > 0
    decreases |s|
  {
    if |s| > 0 {
      var r := Split(s);
      if IsDelim(s[0]) {
        var n := DelimRun(s);
        var t := Split(s[n..]);
        SplitRunsMaximal(s[n..]);
        assert r == [""] + t;
        if |s[n..]| > 0 {
          assert !IsDelim(s[n..][0]);
          SplitFirstPiece(s[n..]);
        }
        forall k | 0 < k < |r| - 1 ensures |r[k]| > 0 {
          assert r[k] == t[k - 1];
        }
      } else {
        var t := Split(s[1..]);
        SplitRunsMaximal(s[1..]);
        forall k | 0 < k < |r| - 1 ensures |r[k]| > 0 {
          assert r[k] == t[k];
        }
      }
    }
  }

  /** A text that starts with a non-delimiter starts with a non-empty piece. */
  lemma SplitFirstPiece(s: string)
    requires |s| > 0 && !IsDelim(s[0])
    ensures |Split(s)[0]| > 0
  {
  }

  // ---------------------------------------------------------------------
  // Substring search: `String.prototype.includes`
  // ---------------------------------------------------------------------

  /** sub occurs in s starting at index i. */
  predicate OccursAt(s: string, sub: string, i: int) {
    0 <= i <= |s| - |sub| && s[i..i + |sub|] == sub
  }

  lemma OccursShift(s: string, sub: string, i: int)
    requires |s| > 0 && i >= 0
    ensures OccursAt(s[1..], sub, i) <==> OccursAt(s, sub, i + 1)
  {
    if 0 <= i <= |s| - 1 - |sub| {
      assert s[1..][i..i + |sub|] == s[i + 1..i + 1 + |sub|];
    }
  }

  /** `s.includes(sub)`. */
  function Includes(s: string, sub: string): (r: bool)
    ensures r <==> exists i :: OccursAt(s, sub, i)
    decreases |s|
  {
    if |s| < |sub| then false
    else if s[..|sub|] == sub then
      assert OccursAt(s, sub, 0);
      true
    else
      var r := Includes(s[1..], sub);
      assert r ==> exists i :: OccursAt(s, sub, i) by {
        if r {
          var i :| OccursAt(s[1..], sub, i);
          OccursShift(s, sub, i);
        }
      }
      assert (exists i :: OccursAt(s, sub, i)) ==> r by {
        if exists i :: OccursAt(s, sub, i) {
          var i :| OccursAt(s, sub, i);
          assert i != 0;
          OccursShift(s, sub, i - 1);
        }
      }
      r
  }

  // ---------------------------------------------------------------------
  // Decimal rendering of a counter: `String(n)`
  // ---------------------------------------------------------------------

  function DigitChar(d: nat): char
    requires d < 10
  {
    ['0', '1', '2', '3', '4', '5', '6', '7', '8', '9'][d]
  }

  predicate IsDecimalDigit(c: char) { '0' <= c <= '9' }

  /** `String(n)` for a non-negative integer: its decimal digits, with no
      leading zero. */
  function Decimal(n: nat): (r: string)
    ensures |r| >= 1
    ensures forall k :: 0 <= k < |r| ==> IsDecimalDigit(r[k])
    ensures n < 10 <==> |r| == 1
    ensures r[0] == '0' <==> n == 0
    ensures forall k :: 0 <= k < |r| ==> IsDigitIn(r[k], 10)
    ensures DigitsValue(r, 10) == n
  {
    if n < 10 then [DigitChar(n)]
    else
      var front := Decimal(n / 10);
      var r := front + [DigitChar(n % 10)];
      assert r[0] == front[0];
      assert r[..|r| - 1] == front;
      assert DigitValue(r[|r| - 1], 10).value == n % 10;
      r
  }

  /** Different numbers never render to the same string. */
  lemma {:induction false} DecimalInjective(a: nat, b: nat)
    requires Decimal(a) == Decimal(b)
    ensures a == b
  {
    if a >= 10 && b >= 10 {
      var da, db := Decimal(a), Decimal(b);
      assert da[|da| - 1] == DigitChar(a % 10) && db[|db| - 1] == DigitChar(b % 10);
      assert a % 10 == b % 10;
      assert Decimal(a / 10) == da[..|da| - 1] == db[..|db| - 1] == Decimal(b / 10);
      DecimalInjective(a / 10, b / 10);
    }
  }

  // ---------------------------------------------------------------------
  // `parseInt(string)` with no radix argument
  // ---------------------------------------------------------------------

  /** A JavaScript number as `parseInt` can produce it: NaN or an integer
      (the sign of zero is dropped; both zeros are falsy). */
  datatype Num = NaN | Int(value: int)

  /** JavaScript truthiness of a number: NaN and zero are falsy. */
  predicate Truthy(n: Num) { n.Int? && n.value != 0 }

  /** `n || fallback` for a number: a caller keeps the number it parsed
      unless that is NaN or zero, and gets the fallback then. */
  function OrElse(n: Num, fallback: int): (r: int)
    ensures Truthy(n) ==> r == n.value
    ensures !Truthy(n) ==> r == fallback
  {
    if Truthy(n) then n.value else fallback
  }

  /** The value of c as a digit in base radix (10 or 16), if it is one. */
  function DigitValue(c: char, radix: nat): Option<nat> {
    if '0' <= c <= '9' then Some(c as nat - '0' as nat)
    else if radix == 16 && 'a' <= c <= 'f' then Some(c as nat - 'a' as nat + 10)
    else if radix == 16 && 'A' <= c <= 'F' then Some(c as nat - 'A' as nat + 10)
    else None
  }

  predicate IsDigitIn(c: char, radix: nat) { DigitValue(c, radix).Some? }

  /** Length of the longest prefix of s made of digits of base radix. */
  function DigitPrefix(s: string, radix: nat): (n: nat)
    ensures n <= |s|
    ensures forall k :: 0 <= k < n ==> IsDigitIn(s[k], radix)
    ensures n < |s| ==> !IsDigitIn(s[n], radix)
  {
    if |s| > 0 && IsDigitIn(s[0], radix) then 1 + DigitPrefix(s[1..], radix) else 0
  }

  /** The number the digit string ds denotes in base radix. */
  function DigitsValue(ds: string, radix: nat): nat
    requires forall k :: 0 <= k < |ds| ==> IsDigitIn(ds[k], radix)
  {
    if |ds| == 0 then 0
    else
      assert IsDigitIn(ds[|ds| - 1], radix);
      DigitsValue(ds[..|ds| - 1], radix) * radix + DigitValue(ds[|ds| - 1], radix).value
  }

  /** `parseInt(s)`: skip leading white space, take an optional sign, then
      read an unsigned number; NaN when there is none. */
  function ParseInt(s: string): (r: Num)
    ensures r.Int? ==> exists k :: 0 <= k < |s| && IsDecimalDigit(s[k])
    ensures r.Int? && r.value < 0 ==> exists k :: 0 <= k < |s| && s[k] == '-'
  {
    var t := TrimStart(s);
    assert forall k :: 0 <= k < |t| ==> t[k] == s[|s| - |t| + k];
    ParseSignedNumber(t)
  }

  /** What `parseInt` reads once the white space is skipped: an optional
      sign, then an unsigned number. */
  function ParseSignedNumber(t: string): (r: Num)
    ensures r.Int? ==> exists k :: 0 <= k < |t| && IsDecimalDigit(t[k])
    ensures r.Int? && r.value < 0 ==> |t| > 0 && t[0] == '-'
  {
    var negative := |t| > 0 && t[0] == '-';
    var signed := |t| > 0 && (t[0] == '-' || t[0] == '+');
    var u := if signed then t[1..] else t;
    match ParseUnsigned(u)
    case None => NaN
    case Some(v) =>
      assert IsDecimalDigit(u[0]) && u[0] == t[if signed then 1 else 0];
      Int(if negative then -(v as int) else v)
  }

  /** `parseInt` skips leading white space: putting more of it in front
      changes nothing. */
  lemma {:induction false} ParseIntSkipsSpace(w: string, s: string)
    requires AllSpace(w)
    ensures ParseInt(w + s) == ParseInt(s)
  {
    TrimStartAfterSpace(w, s);
  }

  lemma {:induction false} TrimStartAfterSpace(w: string, s: string)
    requires AllSpace(w)
    ensures TrimStart(w + s) == TrimStart(s)
    decreases |w|
  {
    if |w| > 0 {
      assert IsSpace(w[0]);
      assert (w + s)[0] == w[0] && (w + s)[1..] == w[1..] + s;
      assert AllSpace(w[1..]) by {
        forall k | 0 <= k < |w[1..]| ensures IsSpace(w[1..][k]) { assert w[1..][k] == w[k + 1]; }
      }
      TrimStartAfterSpace(w[1..], s);
    } else {
      assert w + s == s;
    }
  }

  /** `parseInt` reads the longest run of decimal digits and ignores what
      follows it: "12abc" reads as 12. */
  lemma ParseIntIgnoresTail(d: string, rest: string)
    requires |d| > 0 && forall k :: 0 <= k < |d| ==> IsDigitIn(d[k], 10)
    requires |rest| > 0 ==> !IsDigitIn(rest[0], 10)
    requires d == "0" && |rest| > 0 ==> rest[0] != 'x' && rest[0] != 'X'
    ensures ParseInt(d + rest) == ParseInt(d) == Int(DigitsValue(d, 10))
  {
    var v := DigitsValue(d, 10);
    var s := d + rest;
    DigitNotSpaceOrSign(d[0]);
    assert s[0] == d[0];
    ParseDecimalDigits(d);
    ParsePlain(d, v);
    UnsignedIgnoresTail(d, rest);
    ParsePlain(s, v);
  }

  lemma DigitNotSpaceOrSign(c: char)
    requires IsDigitIn(c, 10)
    ensures !IsSpace(c) && c != '-' && c != '+'
  {
  }

  lemma UnsignedIgnoresTail(d: string, rest: string)
    requires |d| > 0 && forall k :: 0 <= k < |d| ==> IsDigitIn(d[k], 10)
    requires |rest| > 0 ==> !IsDigitIn(rest[0], 10)
    requires d == "0" && |rest| > 0 ==> rest[0] != 'x' && rest[0] != 'X'
    ensures ParseUnsigned(d + rest) == Some(DigitsValue(d, 10))
  {
    var s := d + rest;
    assert !(|s| >= 2 && s[0] == '0' && (s[1] == 'x' || s[1] == 'X')) by {
      if |d| >= 2 { assert s[1] == d[1] && IsDigitIn(d[1], 10); }
      else if |rest| > 0 { assert s[1] == rest[0]; }
    }
    DigitPrefixOfDigits(d, rest);
    assert s[..|d|] == d;
  }

  lemma {:induction false} DigitPrefixOfDigits(d: string, rest: string)
    requires forall k :: 0 <= k < |d| ==> IsDigitIn(d[k], 10)
    requires |rest| > 0 ==> !IsDigitIn(rest[0], 10)
    ensures DigitPrefix(d + rest, 10) == |d|
    decreases |d|
  {
    if |d| > 0 {
      assert (d + rest)[0] == d[0] && (d + rest)[1..] == d[1..] + rest;
      DigitPrefixOfDigits(d[1..], rest);
    } else {
      assert d + rest == rest;
    }
  }

  /** The unsigned part of `parseInt`: an optional `0x`/`0X` prefix that
      switches to base 16, then the longest run of digits, which must not
      be empty. */
  function ParseUnsigned(u: string): Option<nat> {
    var hex := |u| >= 2 && u[0] == '0' && (u[1] == 'x' || u[1] == 'X');
    var radix := if hex then 16 else 10;
    var body := if hex then u[2..] else u;
    var n := DigitPrefix(body, radix);
    if n == 0 then None else Some(DigitsValue(body[..n], radix))
  }

  /** `parseInt` of a request field; an absent field reads as `undefined`,
      whose string form has no digits. */
  function ParseField(field: Option<string>): Num {
    match field
    case None => NaN
    case Some(s) => ParseInt(s)
  }

  /** `parseInt(String(n))` gives back n, with or without a minus sign in
      front: the decimal rendering and the parser agree. */
  lemma DecimalRoundTrip(n: nat)
    ensures ParseInt(Decimal(n)) == Int(n)
    ensures ParseInt("-" + Decimal(n)) == Int(-(n as int))
  {
    var d := Decimal(n);
    DecimalUnsigned(n);
    DigitNotSpaceOrSign(d[0]);
    ParseSigned(d, n);
  }

  /** A number with no space or sign in front parses the same with and
      without a leading minus sign, up to the sign of the result. */
  lemma ParseSigned(u: string, v: nat)
    requires |u| > 0 && !IsSpace(u[0]) && u[0] != '-' && u[0] != '+'
    requires ParseUnsigned(u) == Some(v)
    ensures ParseInt(u) == Int(v)
    ensures ParseInt("-" + u) == Int(-(v as int))
  {
    ParsePlain(u, v);
    var m := "-" + u;
    assert m[0] == '-' && m[1..] == u;
    TrimStartKeeps(m);
  }

  /** A number with no space or sign in front parses as its value. */
  lemma ParsePlain(u: string, v: nat)
    requires |u| > 0 && !IsSpace(u[0]) && u[0] != '-' && u[0] != '+'
    requires ParseUnsigned(u) == Some(v)
    ensures ParseInt(u) == Int(v)
  {
    TrimStartKeeps(u);
  }

  lemma TrimStartKeeps(s: string)
    requires |s| > 0 && !IsSpace(s[0])
    ensures TrimStart(s) == s
  {
  }

  lemma DecimalUnsigned(n: nat)
    ensures ParseUnsigned(Decimal(n)) == Some(n)
  {
    ParseDecimalDigits(Decimal(n));
  }

  /** A non-empty string of decimal digits parses as the number it denotes. */
  lemma ParseDecimalDigits(d: string)
    requires |d| > 0 && forall k :: 0 <= k < |d| ==> IsDigitIn(d[k], 10)
    ensures ParseUnsigned(d) == Some(DigitsValue(d, 10))
  {
    assert !(|d| >= 2 && d[0] == '0' && (d[1] == 'x' || d[1] == 'X')) by {
      if |d| >= 2 { assert IsDigitIn(d[1], 10); }
    }
    DigitPrefixAll(d, 10);
    assert d[..|d|] == d;
  }

  lemma {:induction false} DigitPrefixAll(s: string, radix: nat)
    requires forall k :: 0 <= k < |s| ==> IsDigitIn(s[k], radix)
    ensures DigitPrefix(s, radix) == |s|
  {
    if |s| > 0 { DigitPrefixAll(s[1..], radix); }
  }

  // ---------------------------------------------------------------------
  // `slice(0, end)` and `substring(0, end)`
  // ---------------------------------------------------------------------

  /** `Array.prototype.slice(0, end)` for an integer end: a negative end
      counts back from the length, an end past the length stops there. */
  function SliceTo<T>(xs: seq<T>, end: int): (r: seq<T>)
    ensures |r| <= |xs| && r == xs[..|r|]
    ensures end >= 0 ==> |r| == Min(end, |xs|)
    ensures end < 0 ==> |r| == Max(0, |xs| + end)
  {
    if end >= 0 then xs[..Min(end, |xs|)] else xs[..Max(0, |xs| + end)]
  }

  /** `String.prototype.substring(0, end)`: end is clamped into [0, |s|],
      so a negative end gives the empty string. */
  function SubstringTo(s: string, end: int): (r: string)
    ensures |r| <= |s| && r == s[..|r|]
    ensures end <= 0 ==> r == ""
    ensures end >= |s| ==> r == s
    ensures 0 <= end <= |s| ==> |r| == end
  {
    s[..Max(0, Min(end, |s|))]
  }
}

=== FILE: key_phrases.dfy ===
/** `extractKeyPhrases` from the back end (backend/server.js): the document
    is cut into sentences, the sentences of moderate length are kept, and
    up to `count` distinct ones are sampled at a fixed stride so that they
    come from all over the document. */
module KeyPhrases {
  import opened Base
  import opened JsText

  /** The length filter: strictly more than 10 and fewer than 150 characters. */
  predicate Moderate(s: string) { 10 < |s| < 150 }

  /** Keeps the sentences of moderate length, in order. */
  function KeepModerate(xs: seq<string>): (r: seq<string>)
    ensures forall k :: 0 <= k < |r| ==> Moderate(r[k])
    ensures forall x :: x in xs && Moderate(x) <==> x in r
    ensures IsSubseq(r, xs)
    ensures forall x :: multiset(r)[x] == if Moderate(x) then multiset(xs)[x] else 0
  {
    if |xs| == 0 then []
    else
      var rest := KeepModerate(xs[1..]);
      assert xs == [xs[0]] + xs[1..];
      assert multiset(xs) == multiset{xs[0]} + multiset(xs[1..]);
      if Moderate(xs[0]) then
        assert ([xs[0]] + rest)[1..] == rest;
        assert multiset([xs[0]] + rest) == multiset{xs[0]} + multiset(rest);
        [xs[0]] + rest
      else
        rest
  }

  /** The candidate sentences: every piece of `split(/[.!?]+/)`, trimmed,
      that has moderate length, in document order. */
  function Sentences(text: string): (r: seq<string>)
    ensures forall k :: 0 <= k < |r| ==> Moderate(r[k])
    ensures IsSubseq(r, TrimAll(Split(text)))
    ensures forall x :: multiset(r)[x] == if Moderate(x) then multiset(TrimAll(Split(text)))[x] else 0
  {
    KeepModerate(TrimAll(Split(text)))
  }

  /** Each piece, trimmed. */
  function TrimAll(pieces: seq<string>): (r: seq<string>)
    ensures |r| == |pieces|
    ensures forall k :: 0 <= k < |r| ==> IsTrimOf(r[k], pieces[k])
  {
    seq(|pieces|, k requires 0 <= k < |pieces| => Trim(pieces[k]))
  }

  /** Every candidate sentence is a trimmed piece of the text between
      sentence punctuation, and has moderate length. */
  lemma SentenceShape(text: string, p: string)
    requires p in Sentences(text)
    ensures Moderate(p) && Trimmed(p) && NoDelim(p)
    ensures exists j :: 0 <= j < |Split(text)| && IsTrimOf(p, Split(text)[j])
  {
    var pieces := Split(text);
    SplitPiecesClean(text);
    var trimmed := TrimAll(pieces);
    assert p in trimmed;
    var j :| 0 <= j < |trimmed| && trimmed[j] == p;
    TrimKeepsNoDelim(pieces[j]);
  }

  /** Trimming a piece without delimiters leaves none. */
  lemma TrimKeepsNoDelim(s: string)
    requires NoDelim(s)
    ensures NoDelim(Trim(s)) && Trimmed(Trim(s))
  {
    var r := Trim(s);
    var i, j :| SpaceAround(s, i, j) && s[i..j] == r;
    forall k | 0 <= k < |r| ensures !IsDelim(r[k]) {
      assert r[k] == s[i + k];
    }
  }

  /** Every step-th element of s, starting with the first. */
  function Sampled<T>(s: seq<T>, step: nat): seq<T>
    requires step >= 1
  {
    if |s| == 0 then [] else [s[0]] + Sampled(s[Min(step, |s|)..], step)
  }

  /** `Sampled` picks exactly the indices 0, step, 2*step, ... below |s|. */
  lemma {:induction false} SampledIndices<T>(s: seq<T>, step: nat)
    requires step >= 1
    ensures forall k :: 0 <= k ==> (k < |Sampled(s, step)| <==> k * step < |s|)
    ensures forall k :: 0 <= k < |Sampled(s, step)| ==> Sampled(s, step)[k] == s[k * step]
    decreases |s|
  {
    if |s| > 0 {
      var m := Min(step, |s|);
      var rest := s[m..];
      SampledIndices(rest, step);
      var r := Sampled(s, step);
      assert r == [s[0]] + Sampled(rest, step);
      forall k | 1 <= k
        ensures k < |r| <==> k * step < |s|
        ensures k < |r| ==> r[k] == s[k * step]
      {
        assert k * step == (k - 1) * step + step;
        if k < |r| {
          assert r[k] == Sampled(rest, step)[k - 1];
          assert (k - 1) * step < |rest|;
          assert m == step;
          assert rest[(k - 1) * step] == s[k * step];
        } else {
          assert (k - 1) * step >= |rest|;
        }
      }
    }
  }

  /** `if (!keyPhrases.includes(x)) keyPhrases.push(x)`. */
  function Push<T(==)>(acc: seq<T>, x: T): (r: seq<T>)
    ensures |r| <= |acc| + 1
  {
    if x in acc then acc else acc + [x]
  }

  lemma PushKeepsNoDup<T>(acc: seq<T>, x: T)
    requires NoDup(acc)
    ensures NoDup(Push(acc, x))
  {
  }

  /** The distinct elements of acc + xs in order of first occurrence,
      when acc itself has no duplicates. */
  function DedupFrom<T(==)>(acc: seq<T>, xs: seq<T>): seq<T>
    decreases |xs|
  {
    if |xs| == 0 then acc
    else DedupFrom(Push(acc, xs[0]), xs[1..])
  }

  /** The distinct elements of xs, each at the place it first occurs. */
  function Dedup<T(==)>(xs: seq<T>): seq<T> {
    DedupFrom([], xs)
  }

  /** DedupFrom only appends to acc. */
  lemma {:induction false} DedupFromExtends<T>(acc: seq<T>, xs: seq<T>)
    ensures |acc| <= |DedupFrom(acc, xs)| && DedupFrom(acc, xs)[..|acc|] == acc
    decreases |xs|
  {
    if |xs| > 0 {
      var acc' := Push(acc, xs[0]);
      DedupFromExtends(acc', xs[1..]);
      var r := DedupFrom(acc', xs[1..]);
      assert r[..|acc'|][..|acc|] == r[..|acc|];
    }
  }

  lemma {:induction false} DedupFromNoDup<T>(acc: seq<T>, xs: seq<T>)
    requires NoDup(acc)
    ensures NoDup(DedupFrom(acc, xs))
    decreases |xs|
  {
    if |xs| > 0 {
      PushKeepsNoDup(acc, xs[0]);
      DedupFromNoDup(Push(acc, xs[0]), xs[1..]);
    }
  }

  lemma {:induction false} DedupFromMembers<T>(acc: seq<T>, xs: seq<T>)
    ensures forall x :: x in DedupFrom(acc, xs) <==> x in acc || x in xs
    decreases |xs|
  {
    if |xs| > 0 {
      DedupFromMembers(Push(acc, xs[0]), xs[1..]);
      assert xs == [xs[0]] + xs[1..];
    }
  }

  /** What DedupFrom appends is taken from xs, in order. */
  lemma {:induction false} DedupFromSubseq<T>(acc: seq<T>, xs: seq<T>)
    ensures |acc| <= |DedupFrom(acc, xs)|
    ensures IsSubseq(DedupFrom(acc, xs)[|acc|..], xs)
    decreases |xs|
  {
    DedupFromExtends(acc, xs);
    if |xs| > 0 {
      var x := xs[0];
      var acc' := Push(acc, x);
      DedupFromSubseq(acc', xs[1..]);
      DedupFromExtends(acc', xs[1..]);
      var r := DedupFrom(acc, xs);
      assert r == DedupFrom(acc', xs[1..]);
      if x in acc {
        SubseqDropFront(r[|acc|..], xs);
      } else {
        assert r[|acc|..][0] == x;
        assert r[|acc|..][1..] == r[|acc'|..];
      }
    }
  }

  lemma SubseqDropFront<T>(a: seq<T>, b: seq<T>)
    requires |b| > 0 && IsSubseq(a, b[1..])
    ensures IsSubseq(a, b)
  {
  }

  /** Dedup keeps exactly the elements of xs, once each, in the order of
      their first occurrence. */
  lemma DedupFacts<T>(xs: seq<T>)
    ensures NoDup(Dedup(xs))
    ensures forall x :: x in Dedup(xs) <==> x in xs
    ensures IsSubseq(Dedup(xs), xs)
    ensures forall i, j :: 0 <= i < j < |Dedup(xs)| ==> FirstIndex(xs, Dedup(xs)[i]) < FirstIndex(xs, Dedup(xs)[j])
  {
    DedupFromNoDup([], xs);
    DedupFromMembers([], xs);
    DedupFromSubseq([], xs);
    assert Dedup(xs)[0..] == Dedup(xs);
    DedupFirstOrder(xs);
  }

  /** Where x first occurs in xs. */
  function FirstIndex<T(==)>(xs: seq<T>, x: T): (i: nat)
    requires x in xs
    ensures i < |xs| && xs[i] == x
    ensures forall k :: 0 <= k < i ==> xs[k] != x
  {
    if xs[0] == x then 0 else 1 + FirstIndex(xs[1..], x)
  }

  /** Appending an element after xs does not move any first occurrence
      in xs. */
  lemma {:induction false} FirstIndexSnoc<T>(xs: seq<T>, y: T, x: T)
    requires x in xs
    ensures FirstIndex(xs + [y], x) == FirstIndex(xs, x)
  {
    var i := FirstIndex(xs, x);
    var j := FirstIndex(xs + [y], x);
    assert (xs + [y])[i] == x;
    assert j <= i;
    assert xs[j] == x;
  }

  /** Reading one more element: a repeat leaves the distinct elements as
      they were, and a new element joins them at the end. */
  lemma {:induction false} DedupFromSnoc<T>(acc: seq<T>, xs: seq<T>, y: T)
    ensures DedupFrom(acc, xs + [y]) == Push(DedupFrom(acc, xs), y)
    decreases |xs|
  {
    if |xs| == 0 {
      assert xs + [y] == [y];
      assert [y][1..] == [];
    } else {
      assert (xs + [y])[0] == xs[0] && (xs + [y])[1..] == xs[1..] + [y];
      DedupFromSnoc(Push(acc, xs[0]), xs[1..], y);
    }
  }

  /** Dedup of a list extended by one element. */
  lemma DedupSnoc<T>(xs: seq<T>, y: T)
    ensures y in xs ==> Dedup(xs + [y]) == Dedup(xs)
    ensures y !in xs ==> Dedup(xs + [y]) == Dedup(xs) + [y]
  {
    DedupFromSnoc([], xs, y);
    DedupFromMembers([], xs);
  }

  /** The distinct elements are listed in the order of their first
      occurrence in xs. */
  lemma {:induction false} DedupFirstOrder<T>(xs: seq<T>)
    ensures forall x :: x in Dedup(xs) ==> x in xs
    ensures forall i, j :: 0 <= i < j < |Dedup(xs)| ==> FirstIndex(xs, Dedup(xs)[i]) < FirstIndex(xs, Dedup(xs)[j])
    decreases |xs|
  {
    DedupFromMembers([], xs);
    if |xs| > 0 {
      var p, y := xs[..|xs| - 1], xs[|xs| - 1];
      assert xs == p + [y];
      DedupFirstOrder(p);
      DedupSnoc(p, y);
      DedupFromMembers([], p);
      var d, e := Dedup(p), Dedup(xs);
      forall x | x in d ensures FirstIndex(xs, x) == FirstIndex(p, x) && FirstIndex(xs, x) < |p| {
        FirstIndexSnoc(p, y, x);
      }
      if y !in p {
        assert FirstIndex(xs, y) == |p|;
        assert forall i :: 0 <= i < |d| ==> e[i] == d[i];
      }
    }
  }

  /** The loop of `extractKeyPhrases`. Its index i is represented by the
      sentences from i on: while some are left and fewer than count phrases
      are collected, the first one is pushed if new, and the loop moves on
      by one stride (`i += step`), which drops step sentences or all that
      remain. */
  function Collect<T(==)>(rest: seq<T>, step: nat, count: int, acc: seq<T>): (r: seq<T>)
    requires step >= 1
    ensures |acc| <= |r| && r[..|acc|] == acc
    ensures |acc| <= count ==> |r| <= count
    ensures NoDup(acc) ==> NoDup(r)
    ensures forall x :: x in r ==> x in acc || x in rest
    ensures forall x :: x in r ==> x in acc || x in Sampled(rest, step)
    decreases |rest|
  {
    if |rest| > 0 && |acc| < count then
      var later := rest[Min(step, |rest|)..];
      assert Sampled(rest, step) == [rest[0]] + Sampled(later, step);
      Collect(later, step, count, Push(acc, rest[0]))
    else acc
  }

  /** The loop computes the first count distinct sentences among those at
      the sampled indices, in order. */
  lemma {:induction false} CollectIsTakeDedup<T>(rest: seq<T>, step: nat, count: int, acc: seq<T>)
    requires step >= 1 && count >= 0 && |acc| <= count && NoDup(acc)
    ensures Collect(rest, step, count, acc) == Take(DedupFrom(acc, Sampled(rest, step)), count)
    decreases |rest|
  {
    if |rest| > 0 && |acc| < count {
      var later := rest[Min(step, |rest|)..];
      assert Sampled(rest, step) == [rest[0]] + Sampled(later, step);
      assert ([rest[0]] + Sampled(later, step))[1..] == Sampled(later, step);
      PushKeepsNoDup(acc, rest[0]);
      CollectIsTakeDedup(later, step, count, Push(acc, rest[0]));
    } else {
      CollectStops(rest, step, count, acc);
    }
  }

  /** Once count phrases are collected or the sentences run out, the
      collected phrases are the wanted prefix. */
  lemma CollectStops<T>(rest: seq<T>, step: nat, count: int, acc: seq<T>)
    requires step >= 1 && count >= 0 && |acc| <= count && NoDup(acc)
    requires !(|rest| > 0 && |acc| < count)
    ensures Collect(rest, step, count, acc) == Take(DedupFrom(acc, Sampled(rest, step)), count)
  {
    if |rest| > 0 {
      var d := DedupFrom(acc, Sampled(rest, step));
      DedupFromExtends(acc, Sampled(rest, step));
      assert Take(d, count) == d[..|acc|];
    }
  }

  /** The stride: `Math.max(1, Math.floor(n / count))`. It only matters
      when count is positive; otherwise the loop does not run at all. */
  function Stride(n: nat, count: int): nat {
    if count > 0 then Max(1, n / count) else 1
  }

  /** `extractKeyPhrases(text, count)`. */
  function ExtractKeyPhrases(text: string, count: int): (r: seq<string>)
    ensures |r| <= Max(0, count)
    ensures NoDup(r)
    ensures forall p :: p in r ==> p in Sentences(text)
    ensures count > 0 ==> r == Take(Dedup(Sampled(Sentences(text), Stride(|Sentences(text)|, count))), count)
    ensures count <= 0 ==> r == []
  {
    PickPhrases(Sentences(text), count)
  }

  /** The sampling half of `extractKeyPhrases`, on the sentence list:
      the loop, then `slice(0, count)`. */
  function PickPhrases(sentences: seq<string>, count: int): (r: seq<string>)
    ensures |r| <= Max(0, count)
    ensures NoDup(r)
    ensures forall p :: p in r ==> p in sentences
    ensures count > 0 ==> r == Take(Dedup(Sampled(sentences, Stride(|sentences|, count))), count)
    ensures count <= 0 ==> r == []
  {
    var step := Stride(|sentences|, count);
    var phrases := Collect(sentences, step, count, []);
    if count > 0 then
      PickPhrasesFacts(sentences, count);
      SliceTo(phrases, count)
    else
      SliceTo(phrases, count)
  }

  lemma PickPhrasesFacts(sentences: seq<string>, count: int)
    requires count > 0
    ensures var step := Stride(|sentences|, count);
      var d := Take(Dedup(Sampled(sentences, step)), count);
      && Collect(sentences, step, count, []) == d
      && NoDup(d)
      && (forall p :: p in d ==> p in sentences)
  {
    var step := Stride(|sentences|, count);
    var sampled := Sampled(sentences, step);
    CollectIsTakeDedup(sentences, step, count, []);
    DedupFacts(sampled);
    SampledMembers(sentences, step);
    var d := Take(Dedup(sampled), count);
    assert forall p :: p in d ==> p in Dedup(sampled);
  }

  lemma SampledMembers(s: seq<string>, step: nat)
    requires step >= 1
    ensures forall x :: x in Sampled(s, step) ==> x in s
  {
    SampledIndices(s, step);
  }

  /** Each phrase is a trimmed piece of the text between sentence
      punctuation, of moderate length. */
  lemma PhraseShape(text: string, count: int, p: string)
    requires p in ExtractKeyPhrases(text, count)
    ensures Moderate(p) && Trimmed(p) && NoDelim(p)
    ensures exists j :: 0 <= j < |Split(text)| && IsTrimOf(p, Split(text)[j])
  {
    SentenceShape(text, p);
  }
}

=== FILE: offline_cache.dfy ===
/** The offline cache policy of the service worker (service-worker.js):
    install fills the current cache generation with the build's assets,
    activate throws away every other generation, and fetch answers from
    the network first and from the caches when the network fails.

    The Cache Storage of the browser is a list of named caches in creation
    order, each a map from request URL to response; `caches.match`
    searches them in that order. The network's answer to each request is
    an input. Where the code leans on the Cache API's own rules (which
    requests `put` and `match` accept), those rules are modelled as the
    Service Workers specification states them. */
module OfflineCache {
  import opened Base
  import opened JsText

  /** A response as far as the worker looks at it: its status; the body
      travels along untouched. */
  datatype Response = Response(status: nat, body: string)

  /** `response.ok`: a status in 200..299. */
  predicate IsOk(resp: Response) {
    200 <= resp.status <= 299
  }

  /** What `fetch(request)` does: resolve with a response (of any
      status) or reject with a network error. */
  datatype NetOutcome = Responded(response: Response) | NetworkError

  /** The parts of a request the handler reads: the resolved URL, its
      origin, the HTTP method and whether it is a navigation. */
  datatype Request = Request(url: string, origin: string, verb: string, navigate: bool)

  type Store = map<string, Response>

  /** The Cache Storage: cache names in creation order and their
      contents. */
  datatype Caches = Caches(names: seq<string>, stores: map<string, Store>)

  const ApiCache := "api-cache-v1"
  const ApiHost := "quiz-backend.espaderario.workers.dev"
  const IndexPage := "/index.html"
  const RootPage := "./"

  /** Each name is listed once and names exactly the caches that exist. */
  ghost predicate Wf(c: Caches) {
    NoDup(c.names) && forall n :: n in c.names <==> n in c.stores
  }

  // ---------------------------------------------------------------------
  // Cache Storage operations
  // ---------------------------------------------------------------------

  /** `caches.open(name)`: the existing cache, or a new empty one created
      after all the others. */
  function Open(c: Caches, name: string): (r: Caches)
    ensures name in r.stores
    ensures name in c.stores ==> r == c
    ensures name !in c.stores ==> r.names == c.names + [name] && r.stores[name] == map[]
    ensures forall n :: n in c.stores ==> n in r.stores && r.stores[n] == c.stores[n]
    ensures forall n :: n in r.stores ==> n in c.stores || n == name
    ensures Wf(c) ==> Wf(r)
  {
    if name in c.stores then c
    else Caches(c.names + [name], c.stores[name := map[]])
  }

  /** Whether `cache.put` stores the pair: the Cache API refuses a
      request whose method is not GET and a 206 partial response. */
  predicate PutAccepts(verb: string, resp: Response) {
    verb == "GET" && resp.status != 206
  }

  /** `caches.open(name).then(cache => cache.put(request, response))`:
      the cache is opened (created if need be) whether or not the put is
      accepted. */
  function Put(c: Caches, name: string, req: Request, resp: Response): (r: Caches)
    ensures name in r.stores
    ensures forall n :: n in r.stores <==> n in c.stores || n == name
    ensures forall n :: n in c.stores && n != name ==> r.stores[n] == c.stores[n]
    ensures PutAccepts(req.verb, resp) ==>
      r.stores[name] == (if name in c.stores then c.stores[name] else map[])[req.url := resp]
    ensures !PutAccepts(req.verb, resp) ==> r == Open(c, name)
    ensures r.names == Open(c, name).names
    ensures Wf(c) ==> Wf(r)
  {
    var o := Open(c, name);
    if PutAccepts(req.verb, resp) then o.(stores := o.stores[name := o.stores[name][req.url := resp]])
    else o
  }

  /** The cache at position i of names holds url. */
  predicate Holds(names: seq<string>, stores: map<string, Store>, url: string, i: int) {
    0 <= i < |names| && names[i] in stores && url in stores[names[i]]
  }

  /** Position i is the first that holds url. */
  predicate FirstHolder(names: seq<string>, stores: map<string, Store>, url: string, i: int) {
    Holds(names, stores, url, i) && forall j :: 0 <= j < i ==> !Holds(names, stores, url, j)
  }

  /** The entry for url in the first of the named caches that has one. */
  function MatchIn(names: seq<string>, stores: map<string, Store>, url: string): (r: Option<Response>)
    ensures r.None? <==> forall i :: 0 <= i < |names| ==> !Holds(names, stores, url, i)
    ensures r.Some? ==> exists i :: FirstHolder(names, stores, url, i) && r.value == stores[names[i]][url]
  {
    if |names| == 0 then None
    else if names[0] in stores && url in stores[names[0]] then
      assert FirstHolder(names, stores, url, 0);
      Some(stores[names[0]][url])
    else
      var r := MatchIn(names[1..], stores, url);
      assert forall i :: 0 < i < |names| ==> (Holds(names, stores, url, i) <==> Holds(names[1..], stores, url, i - 1));
      if r.Some? then
        var i :| FirstHolder(names[1..], stores, url, i) && r.value == stores[names[1..][i]][url];
        assert FirstHolder(names, stores, url, i + 1);
        r
      else r
  }

  /** `caches.match(request)`: a caller gets the entry of the first cache,
      in creation order, that holds the URL of a GET request, and
      undefined for any other request or when no cache holds it. */
  function Match(c: Caches, verb: string, url: string): (r: Option<Response>)
    ensures verb != "GET" ==> r.None?
    ensures verb == "GET" ==> r == MatchIn(c.names, c.stores, url)
    ensures r.None? <==> verb != "GET" || forall i :: 0 <= i < |c.names| ==> !Holds(c.names, c.stores, url, i)
    ensures r.Some? ==> exists i :: FirstHolder(c.names, c.stores, url, i) && r.value == c.stores[c.names[i]][url]
  {
    if verb != "GET" then None else MatchIn(c.names, c.stores, url)
  }

  /** `caches.delete(name)`. */
  function Delete(c: Caches, name: string): (r: Caches)
    ensures forall n :: n in r.stores <==> n in c.stores && n != name
    ensures forall n :: n in r.stores ==> r.stores[n] == c.stores[n]
    ensures IsSubseq(r.names, c.names)
    ensures Wf(c) ==> Wf(r)
  {
    Caches(Remove(c.names, name), c.stores - {name})
  }

  // ---------------------------------------------------------------------
  // install
  // ---------------------------------------------------------------------

  /** Whether `cache.add(asset)` stores the fetched response: it needs an
      ok status other than 206; a network error or any other status
      rejects, and the rejection is swallowed. */
  predicate Added(out: NetOutcome) {
    out.Responded? && IsOk(out.response) && out.response.status != 206
  }

  /** The install handler: open the current generation and add every
      asset independently. It always finishes; the cache ends up holding
      what it held before plus exactly the assets whose add succeeded. */
  method Install(c: Caches, cacheName: string, assets: seq<string>, net: string -> NetOutcome) returns (r: Caches)
    requires Wf(c)
    ensures Wf(r)
    ensures r.names == Open(c, cacheName).names
    ensures cacheName in r.stores
    ensures forall n :: n in c.stores && n != cacheName ==> n in r.stores && r.stores[n] == c.stores[n]
    ensures forall n :: n in r.stores ==> n in c.stores || n == cacheName
    ensures forall u :: u in r.stores[cacheName] <==>
      (u in assets && Added(net(u))) || (cacheName in c.stores && u in c.stores[cacheName])
    ensures forall u :: u in assets && Added(net(u)) ==> r.stores[cacheName][u] == net(u).response
    ensures forall u :: u in r.stores[cacheName] && !(u in assets && Added(net(u))) ==>
      r.stores[cacheName][u] == c.stores[cacheName][u]
  {
    var o := Open(c, cacheName);
    var cache := o.stores[cacheName];
    var i := 0;
    while i < |assets|
      invariant 0 <= i <= |assets|
      invariant forall u :: u in cache <==> (u in assets[..i] && Added(net(u))) || u in o.stores[cacheName]
      invariant forall u :: u in assets[..i] && Added(net(u)) ==> cache[u] == net(u).response
      invariant forall u :: u in cache && !(u in assets[..i] && Added(net(u))) ==> cache[u] == o.stores[cacheName][u]
    {
      var out := net(assets[i]);
      if Added(out) {
        cache := cache[assets[i] := out.response];
      }
      assert assets[..i + 1] == assets[..i] + [assets[i]];
      i := i + 1;
    }
    assert assets[..i] == assets;
    r := o.(stores := o.stores[cacheName := cache]);
  }

  // ---------------------------------------------------------------------
  // activate
  // ---------------------------------------------------------------------

  /** The activate handler: delete every cache except the current
      generation and the API cache. The two survivors keep their contents
      and their relative order. */
  method Activate(c: Caches, cacheName: string) returns (r: Caches)
    requires Wf(c)
    ensures Wf(r)
    ensures forall n :: n in r.stores <==> n in c.stores && (n == cacheName || n == ApiCache)
    ensures forall n :: n in r.stores ==> r.stores[n] == c.stores[n]
    ensures IsSubseq(r.names, c.names)
  {
    var keys := c.names;
    r := c;
    var i := 0;
    SubseqRefl(c.names);
    while i < |keys|
      invariant 0 <= i <= |keys|
      invariant Wf(r)
      invariant forall n :: n in r.stores ==> n in c.stores && r.stores[n] == c.stores[n]
      invariant forall j :: 0 <= j < |keys| ==>
        (keys[j] in r.stores <==> (j >= i || keys[j] == cacheName || keys[j] == ApiCache))
      invariant IsSubseq(r.names, c.names)
    {
      var key := keys[i];
      if key != cacheName && key != ApiCache {
        var r2 := Delete(r, key);
        SubseqTransitive(r2.names, r.names, c.names);
        forall j | 0 <= j < |keys|
          ensures keys[j] in r2.stores <==> (j >= i + 1 || keys[j] == cacheName || keys[j] == ApiCache)
        {
          if j != i {
            assert keys[j] != key;
          }
        }
        r := r2;
      }
      i := i + 1;
    }
  }

  // ---------------------------------------------------------------------
  // fetch
  // ---------------------------------------------------------------------

  /** A pending lookup as the handler holds it: a promise, which is an
      object and therefore truthy whatever it resolves to. */
  datatype Pending = Pending(result: Option<Response>)

  predicate PromiseTruthy(p: Pending) {
    true
  }

  /** JavaScript `a || b` on two promises. */
  function PromiseOr(a: Pending, b: Pending): Pending {
    if PromiseTruthy(a) then a else b
  }

  /** The navigation fallback `caches.match('/index.html') || caches.match('./')`. */
  function NavigationFallback(c: Caches): (r: Option<Response>)
    ensures r == Match(c, "GET", IndexPage)
  {
    PromiseOr(Pending(Match(c, "GET", IndexPage)), Pending(Match(c, "GET", RootPage))).result
  }

  /** The second arm is never consulted: with `/index.html` missing the
      fallback is undefined even when `./` is cached. */
  lemma RootPageNeverServed(resp: Response)
    ensures var c := Caches(["v1"], map["v1" := map[RootPage := resp]]);
      NavigationFallback(c).None? && Match(c, "GET", RootPage) == Some(resp)
  {
    var c := Caches(["v1"], map["v1" := map[RootPage := resp]]);
    assert IndexPage != RootPage;
    assert !Holds(c.names, c.stores, IndexPage, 0);
    assert FirstHolder(c.names, c.stores, RootPage, 0);
  }

  /** The branch a request takes, in the handler's order. */
  datatype Branch = ApiBranch | NavigationBranch | AssetBranch

  function BranchOf(req: Request): (b: Branch)
    ensures b == ApiBranch <==> Includes(req.origin, ApiHost)
    ensures b == NavigationBranch <==> !Includes(req.origin, ApiHost) && req.navigate
  {
    if Includes(req.origin, ApiHost) then ApiBranch
    else if req.navigate then NavigationBranch
    else AssetBranch
  }

  /** The caches after the request and the response handed to the page
      (`None` for an undefined cache lookup). */
  datatype Served = Served(caches: Caches, response: Option<Response>)

  /** The fetch handler, with the network's answer as input. */
  function Fetch(c: Caches, cacheName: string, req: Request, net: NetOutcome): (r: Served)
    ensures net.Responded? ==> r.response == Some(net.response)
    ensures net.NetworkError? ==> r.caches == c
    ensures net.NetworkError? && BranchOf(req) != NavigationBranch ==> r.response == Match(c, req.verb, req.url)
    ensures net.NetworkError? && BranchOf(req) == NavigationBranch ==> r.response == Match(c, "GET", IndexPage)
    ensures net.Responded? && IsOk(net.response) && BranchOf(req) == ApiBranch ==> r.caches == Put(c, ApiCache, req, net.response)
    ensures net.Responded? && IsOk(net.response) && BranchOf(req) == AssetBranch ==> r.caches == Put(c, cacheName, req, net.response)
    ensures net.Responded? && (!IsOk(net.response) || BranchOf(req) == NavigationBranch) ==> r.caches == c
  {
    match BranchOf(req)
    case ApiBranch =>
      (match net
       case Responded(resp) => Served(if IsOk(resp) then Put(c, ApiCache, req, resp) else c, Some(resp))
       case NetworkError => Served(c, Match(c, req.verb, req.url)))
    case NavigationBranch =>
      (match net
       case Responded(resp) => Served(c, Some(resp))
       case NetworkError => Served(c, NavigationFallback(c)))
    case AssetBranch =>
      (match net
       case Responded(resp) => Served(if IsOk(resp) then Put(c, cacheName, req, resp) else c, Some(resp))
       case NetworkError => Served(c, Match(c, req.verb, req.url)))
  }

  /** A request to the API origin takes the API branch even when it is a
      navigation, and the method plays no part in choosing the branch. */
  lemma ApiOriginWins(c: Caches, cacheName: string, req: Request, net: NetOutcome, verb: string)
    requires Includes(req.origin, ApiHost)
    ensures Fetch(c, cacheName, req.(navigate := true), net) == Fetch(c, cacheName, req.(navigate := false), net)
    ensures BranchOf(req.(verb := verb)) == ApiBranch
  {
  }

  /** An API response never lands in the asset cache: every cache other
      than the API cache keeps its contents. */
  lemma ApiResponsesStayInApiCache(c: Caches, cacheName: string, req: Request, net: NetOutcome)
    requires Includes(req.origin, ApiHost)
    ensures var r := Fetch(c, cacheName, req, net);
      forall n :: n in c.stores && n != ApiCache ==> n in r.caches.stores && r.caches.stores[n] == c.stores[n]
  {
  }

  /** Only GET requests with an ok, non-partial response change a cache;
      the fetch handler never deletes a cache or reorders them. */
  lemma FetchWritesOnlyGets(c: Caches, cacheName: string, req: Request, net: NetOutcome)
    requires Wf(c)
    ensures var r := Fetch(c, cacheName, req, net);
      && Wf(r.caches)
      && c.names <= r.caches.names
      && (forall n :: n in c.stores ==> n in r.caches.stores)
      && (forall n :: n in c.stores && r.caches.stores[n] != c.stores[n] ==>
            req.verb == "GET" && net.Responded? && IsOk(net.response) && net.response.status != 206)
  {
  }

  /** Going offline after a successful GET of an asset serves the response
      just stored, provided no cache created earlier than the asset cache
      also holds that URL. */
  lemma OnlineThenOffline(c: Caches, cacheName: string, req: Request, resp: Response)
    requires Wf(c)
    requires BranchOf(req) == AssetBranch && req.verb == "GET" && IsOk(resp) && resp.status != 206
    requires forall n :: n in c.stores && n != cacheName ==> req.url !in c.stores[n]
    ensures var c2 := Fetch(c, cacheName, req, Responded(resp)).caches;
      Fetch(c2, cacheName, req, NetworkError).response == Some(resp)
  {
    var c2 := Fetch(c, cacheName, req, Responded(resp)).caches;
    var k :| 0 <= k < |c2.names| && c2.names[k] == cacheName;
    assert Holds(c2.names, c2.stores, req.url, k);
    var m := MatchIn(c2.names, c2.stores, req.url);
    var i :| FirstHolder(c2.names, c2.stores, req.url, i) && m.value == c2.stores[c2.names[i]][req.url];
    assert c2.names[i] == cacheName;
  }
}

=== FILE: worker_store.dfy ===
/** The quiz store of the Cloudflare worker (cloudflare-worker/src/index.js):
    records kept in a Workers KV namespace, reached through an itty-router
    router. The namespace is a map from key to record; each handler is a
    pure function from the namespace and the request to the new namespace
    and the response. `Date.now()`, `Math.random()` and the ISO time
    stamps are parameters. */
module WorkerStore {
  import opened Base
  import opened JsText

  // ---------------------------------------------------------------------
  // Key order of `list()`
  // ---------------------------------------------------------------------

  /** a sorts no later than b: KV lists keys in lexicographic order of
      their UTF-8 bytes, which is the lexicographic order of their code
      points. */
  predicate LexLe(a: string, b: string)
    decreases |a|
  {
    || |a| == 0
    || (|b| > 0 && (a[0] < b[0] || (a[0] == b[0] && LexLe(a[1..], b[1..]))))
  }

  lemma {:induction false} LexRefl(a: string)
    ensures LexLe(a, a)
    decreases |a|
  {
    if |a| > 0 {
      LexRefl(a[1..]);
    }
  }

  lemma {:induction false} LexTotal(a: string, b: string)
    ensures LexLe(a, b) || LexLe(b, a)
    decreases |a|
  {
    if |a| > 0 && |b| > 0 && a[0] == b[0] {
      LexTotal(a[1..], b[1..]);
    }
  }

  lemma {:induction false} LexAntisymmetric(a: string, b: string)
    requires LexLe(a, b) && LexLe(b, a)
    ensures a == b
    decreases |a|
  {
    if |a| > 0 && |b| > 0 {
      LexAntisymmetric(a[1..], b[1..]);
      assert a == [a[0]] + a[1..] && b == [b[0]] + b[1..];
    }
  }

  lemma {:induction false} LexTransitive(a: string, b: string, c: string)
    requires LexLe(a, b) && LexLe(b, c)
    ensures LexLe(a, c)
    decreases |a|
  {
    if |a| > 0 && |b| > 0 && |c| > 0 && a[0] == b[0] && b[0] == c[0] {
      LexTransitive(a[1..], b[1..], c[1..]);
    }
  }

  /** m is the first of ks in key order. */
  predicate IsLeast(m: string, ks: set<string>) {
    m in ks && forall k :: k in ks ==> LexLe(m, k)
  }

  lemma {:induction false} LeastExists(ks: set<string>)
    requires ks != {}
    ensures exists m :: IsLeast(m, ks)
    decreases |ks|
  {
    var x :| x in ks;
    if ks == {x} {
      LexRefl(x);
      assert IsLeast(x, ks);
    } else {
      var rest := ks - {x};
      LeastExists(rest);
      var m :| IsLeast(m, rest);
      LexTotal(m, x);
      if LexLe(m, x) {
        assert IsLeast(m, ks);
      } else {
        forall k | k in ks ensures LexLe(x, k) {
          if k == x {
            LexRefl(x);
          } else {
            LexTransitive(x, m, k);
          }
        }
        assert IsLeast(x, ks);
      }
    }
  }

  lemma LeastUnique(ks: set<string>)
    ensures forall a, b :: IsLeast(a, ks) && IsLeast(b, ks) ==> a == b
  {
    forall a, b | IsLeast(a, ks) && IsLeast(b, ks) ensures a == b {
      LexAntisymmetric(a, b);
    }
  }

  /** The first key of a non-empty key set. */
  function Least(ks: set<string>): (m: string)
    requires ks != {}
    ensures IsLeast(m, ks)
  {
    LeastExists(ks);
    LeastUnique(ks);
    var m :| IsLeast(m, ks);
    m
  }

  /** Each key sorts strictly before every later one. */
  predicate Ascending(xs: seq<string>) {
    forall i, j :: 0 <= i < j < |xs| ==> LexLe(xs[i], xs[j]) && xs[i] != xs[j]
  }

  /** All keys of the namespace in listing order. */
  function SortedKeys(ks: set<string>): (r: seq<string>)
    ensures forall k :: k in r <==> k in ks
    ensures |r| == |ks|
    ensures Ascending(r)
    decreases |ks|
  {
    if ks == {} then []
    else
      var m := Least(ks);
      var rest := SortedKeys(ks - {m});
      PrependLeast(ks, m, rest);
      [m] + rest
  }

  /** The least key followed by the rest in order is the whole set in order. */
  lemma PrependLeast(ks: set<string>, m: string, rest: seq<string>)
    requires IsLeast(m, ks)
    requires forall k :: k in rest <==> k in ks - {m}
    requires |rest| == |ks - {m}| && Ascending(rest)
    ensures forall k :: k in [m] + rest <==> k in ks
    ensures |[m] + rest| == |ks|
    ensures Ascending([m] + rest)
  {
    var r := [m] + rest;
    forall i, j | 0 <= i < j < |r| ensures LexLe(r[i], r[j]) && r[i] != r[j] {
      assert r[j] == rest[j - 1] && rest[j - 1] in rest;
      if i > 0 {
        assert r[i] == rest[i - 1];
      }
    }
  }

  // ---------------------------------------------------------------------
  // Records, requests and responses
  // ---------------------------------------------------------------------

  /** A stored quiz as the create handler serialises it. */
  datatype Record = Record(id: string, title: string, questions: seq<Question>, createdAt: string, updatedAt: string)

  /** The `QUIZZES` namespace. */
  type Kv = map<string, Record>

  /** The fields of a JSON request body that parsed; `None` for a body
      `req.json()` rejects or one that cannot be destructured. */
  datatype Input = Input(title: Option<string>, questions: Option<seq<Question>>)

  /** The JSON documents the worker answers with. */
  datatype Payload =
    | Health(status: string, service: string)
    | Failure(error: string)
    | Quizzes(quizzes: seq<Record>)
    | CreatedQuiz(id: string, title: string, questionCount: nat, createdAt: string)
    | OneQuiz(quiz: Record)
    | Removed(message: string)
    | Unrouted(error: string, available: seq<string>)

  /** A response: its status, its JSON body (`null` for the preflight
      reply) and its headers. */
  datatype Response = Response(status: nat, body: Option<Payload>, headers: seq<(string, string)>)

  datatype Outcome = Outcome(kv: Kv, response: Response)

  /** What the request reads from the outside world: `Date.now()`, the
      `Math.random().toString(36).substr(2, 9)` suffix, and the ISO time
      stamps written as creation and update times. */
  datatype Ambient = Ambient(stamp: nat, random: string, createdAt: string, updatedAt: string)

  const CorsHeaders: seq<(string, string)> := [
    ("Access-Control-Allow-Origin", "*"),
    ("Access-Control-Allow-Methods", "GET, POST, PUT, DELETE, OPTIONS"),
    ("Access-Control-Allow-Headers", "Content-Type, Authorization"),
    ("Content-Type", "application/json")
  ]

  const NotFound := "Quiz not found"

  /** KV returns at most this many keys from one `list()` call. */
  const ListLimit := 1000

  /** `json(data, status = 200)`: the document with the CORS headers. */
  function Json(data: Payload, status: nat := 200): (r: Response)
    ensures r.body == Some(data) && r.status == status && r.headers == CorsHeaders
  {
    Response(status, Some(data), CorsHeaders)
  }

  /** Without a status argument the response is a 200. */
  lemma JsonDefaultsTo200(data: Payload)
    ensures Json(data).status == 200 && Json(data) == Json(data, 200)
  {
  }

  /** Every record is stored under its own id. */
  ghost predicate WellKeyed(kv: Kv) {
    forall k :: k in kv ==> kv[k].id == k
  }

  // ---------------------------------------------------------------------
  // Handlers
  // ---------------------------------------------------------------------

  /** GET /api/quizzes: the records under the first 1000 keys of the
      listing, in key order. */
  function List(kv: Kv): (r: Response)
    ensures r.status == 200 && r.body.Some? && r.body.value.Quizzes?
    ensures |r.body.value.quizzes| == Min(|kv|, ListLimit)
    ensures var keys := Take(SortedKeys(kv.Keys), ListLimit);
      forall i :: 0 <= i < |r.body.value.quizzes| ==> i < |keys| && keys[i] in kv && r.body.value.quizzes[i] == kv[keys[i]]
  {
    var keys := Take(SortedKeys(kv.Keys), ListLimit);
    Json(Quizzes(seq(|keys|, i requires 0 <= i < |keys| => kv[keys[i]])))
  }

  /** Up to the listing limit, the list holds exactly one entry per key,
      in ascending key order. */
  lemma ListOnePerKey(kv: Kv)
    requires WellKeyed(kv) && |kv| <= ListLimit
    ensures var qs := List(kv).body.value.quizzes;
      && (forall k :: k in kv <==> exists i :: 0 <= i < |qs| && qs[i].id == k)
      && (forall i :: 0 <= i < |qs| ==> qs[i].id in kv && qs[i] == kv[qs[i].id])
      && (forall i, j :: 0 <= i < j < |qs| ==> LexLe(qs[i].id, qs[j].id) && qs[i].id != qs[j].id)
  {
    var keys := SortedKeys(kv.Keys);
    var qs := List(kv).body.value.quizzes;
    ListIdsAreKeys(kv);
    forall k | k in kv ensures exists i :: 0 <= i < |qs| && qs[i].id == k {
      var i :| 0 <= i < |keys| && keys[i] == k;
      assert qs[i].id == k;
    }
  }

  /** Below the limit, the i-th listed record is the one under the i-th
      smallest key and carries that key as its id. */
  lemma ListIdsAreKeys(kv: Kv)
    requires WellKeyed(kv) && |kv| <= ListLimit
    ensures var keys := SortedKeys(kv.Keys); var qs := List(kv).body.value.quizzes;
      && |qs| == |keys|
      && forall i :: 0 <= i < |qs| ==> keys[i] in kv && qs[i] == kv[keys[i]] && qs[i].id == keys[i]
  {
    var keys := SortedKeys(kv.Keys);
    var qs := List(kv).body.value.quizzes;
    assert Take(keys, ListLimit) == keys;
    forall i | 0 <= i < |qs| ensures keys[i] in kv && qs[i] == kv[keys[i]] && qs[i].id == keys[i] {
      assert keys[i] in keys;
      assert qs[i] == kv[Take(keys, ListLimit)[i]];
    }
  }

  /** POST /api/quizzes: a body that does not parse is a 500; a falsy
      title or a missing or empty question list is a 400; otherwise the
      record is written under `quiz_<stamp>_<random>` and a 201 reports
      it. Nothing is written except on the 201 path. */
  function Create(kv: Kv, body: Option<Input>, amb: Ambient): (r: Outcome)
    ensures body.None? ==> r == Outcome(kv, Json(Failure("Failed to create quiz"), 500))
    ensures body.Some? ==>
      (r.response.status == 400 <==> !(TitleGiven(body.value.title) && body.value.questions.Some? && |body.value.questions.value| > 0))
    ensures body.Some? && TitleGiven(body.value.title) && body.value.questions.Some? && |body.value.questions.value| > 0 ==>
      r.response.status == 201
    ensures r.response.status != 201 ==> r.kv == kv
    ensures r.response.status == 400 ==> r.response == Json(Failure("Title and questions are required"), 400)
    ensures r.response.status == 201 ==>
      body.Some? && body.value.title.Some? && body.value.questions.Some? &&
      var id := "quiz_" + Decimal(amb.stamp) + "_" + amb.random;
      && r.kv == kv[id := Record(id, body.value.title.value, body.value.questions.value, amb.createdAt, amb.updatedAt)]
      && r.response == Json(CreatedQuiz(id, body.value.title.value, |body.value.questions.value|, amb.createdAt), 201)
  {
    match body
    case None => Outcome(kv, Json(Failure("Failed to create quiz"), 500))
    case Some(input) =>
      if !TitleGiven(input.title) || input.questions.None? || |input.questions.value| == 0 then
        Outcome(kv, Json(Failure("Title and questions are required"), 400))
      else
        var id := "quiz_" + Decimal(amb.stamp) + "_" + amb.random;
        var quiz := Record(id, input.title.value, input.questions.value, amb.createdAt, amb.updatedAt);
        Outcome(kv[id := quiz], Json(CreatedQuiz(id, quiz.title, |quiz.questions|, quiz.createdAt), 201))
  }

  /** A successful create writes exactly one key, which starts with
      `quiz_`, keeps every other key as it was and keeps the namespace
      well keyed. */
  lemma CreateWritesOneKey(kv: Kv, body: Option<Input>, amb: Ambient)
    requires WellKeyed(kv)
    ensures var r := Create(kv, body, amb);
      && WellKeyed(r.kv)
      && (r.response.status == 201 ==>
        var id := r.response.body.value.id;
        && |id| > 5 && id[..5] == "quiz_"
        && r.kv.Keys == kv.Keys + {id}
        && forall k :: k in kv && k != id ==> r.kv[k] == kv[k])
  {
    var r := Create(kv, body, amb);
    if r.response.status == 201 {
      var id := "quiz_" + Decimal(amb.stamp) + "_" + amb.random;
      assert id[..5] == "quiz_";
    }
  }

  /** GET /api/quizzes/:id: the stored record, unchanged, or a 404. */
  function Get(kv: Kv, id: string): (r: Response)
    ensures r.status == 404 <==> id !in kv
    ensures id !in kv ==> r == Json(Failure(NotFound), 404)
    ensures id in kv ==> r.status == 200 && r.body == Some(OneQuiz(kv[id]))
  {
    if id !in kv then Json(Failure(NotFound), 404) else Json(OneQuiz(kv[id]))
  }

  /** Reading back a quiz just created returns the record written. */
  lemma CreateThenGet(kv: Kv, body: Option<Input>, amb: Ambient)
    ensures var r := Create(kv, body, amb);
      r.response.status == 201 ==>
        var id := r.response.body.value.id;
        && Get(r.kv, id).status == 200
        && Get(r.kv, id).body.value.quiz
          == Record(id, body.value.title.value, body.value.questions.value, amb.createdAt, amb.updatedAt)
  {
  }

  /** The record an update writes: the existing one with a truthy title
      and any present question list taken from the body and a fresh
      update time. */
  function Merge(existing: Record, input: Input, updatedAt: string): (m: Record)
    ensures m.id == existing.id && m.createdAt == existing.createdAt && m.updatedAt == updatedAt
    ensures TitleGiven(input.title) ==> m.title == input.title.value
    ensures !TitleGiven(input.title) ==> m.title == existing.title
    ensures input.questions.Some? ==> m.questions == input.questions.value
    ensures input.questions.None? ==> m.questions == existing.questions
  {
    existing.(
      title := if TitleGiven(input.title) then input.title.value else existing.title,
      questions := if input.questions.Some? then input.questions.value else existing.questions,
      updatedAt := updatedAt)
  }

  /** PUT /api/quizzes/:id: the body is parsed before the lookup, so an
      unparsable body is a 500 even for a missing id; a missing id is a
      404; either way nothing is written. Otherwise the merged record
      replaces the old one and is returned. */
  function Update(kv: Kv, id: string, body: Option<Input>, updatedAt: string): (r: Outcome)
    ensures body.None? ==> r == Outcome(kv, Json(Failure("Failed to update quiz"), 500))
    ensures body.Some? ==> (r.response.status == 404 <==> id !in kv)
    ensures body.Some? && id in kv ==> r.response.status == 200
    ensures r.response.status != 200 ==> r.kv == kv
    ensures r.response.status == 404 ==> r.response == Json(Failure(NotFound), 404)
    ensures r.response.status == 200 ==>
      body.Some? && id in kv &&
      var m := Merge(kv[id], body.value, updatedAt);
      r.kv == kv[id := m] && r.response == Json(OneQuiz(m))
  {
    match body
    case None => Outcome(kv, Json(Failure("Failed to update quiz"), 500))
    case Some(input) =>
      if id !in kv then Outcome(kv, Json(Failure(NotFound), 404))
      else
        var m := Merge(kv[id], input, updatedAt);
        Outcome(kv[id := m], Json(OneQuiz(m)))
  }

  /** An update keeps the key set, every other record and the namespace
      well keyed. */
  lemma UpdateKeepsOthers(kv: Kv, id: string, body: Option<Input>, updatedAt: string)
    requires WellKeyed(kv)
    ensures var r := Update(kv, id, body, updatedAt);
      && WellKeyed(r.kv)
      && r.kv.Keys == kv.Keys
      && forall k :: k in kv && k != id ==> r.kv[k] == kv[k]
  {
  }

  /** Reading back an updated quiz shows the merged record. */
  lemma UpdateThenGet(kv: Kv, id: string, input: Input, updatedAt: string)
    requires id in kv
    ensures Get(Update(kv, id, Some(input), updatedAt).kv, id).body == Some(OneQuiz(Merge(kv[id], input, updatedAt)))
  {
  }

  /** DELETE /api/quizzes/:id: a 404 for a missing id, otherwise exactly
      that key is removed. */
  function Delete(kv: Kv, id: string): (r: Outcome)
    ensures r.response.status == 404 <==> id !in kv
    ensures id !in kv ==> r == Outcome(kv, Json(Failure(NotFound), 404))
    ensures id in kv ==>
      && r.response == Json(Removed("Quiz deleted"))
      && r.kv.Keys == kv.Keys - {id}
      && forall k :: k in r.kv ==> r.kv[k] == kv[k]
  {
    if id !in kv then Outcome(kv, Json(Failure(NotFound), 404))
    else Outcome(kv - {id}, Json(Removed("Quiz deleted")))
  }

  /** After a delete the quiz is gone for later reads, updates and
      deletes. */
  lemma DeleteThenGet(kv: Kv, id: string, input: Input, updatedAt: string)
    requires id in kv
    ensures var kv2 := Delete(kv, id).kv;
      && Get(kv2, id).status == 404
      && Update(kv2, id, Some(input), updatedAt).response.status == 404
      && Delete(kv2, id).response.status == 404
  {
  }

  // ---------------------------------------------------------------------
  // Routing
  // ---------------------------------------------------------------------

  /** A request as the router sees it: HTTP method, URL path and body. */
  datatype Request = Request(verb: string, path: string, body: Option<Input>)

  const QuizzesPath := "/api/quizzes"

  const Available := [
    "GET /api/health",
    "GET /api/quizzes",
    "POST /api/quizzes",
    "GET /api/quizzes/:id",
    "PUT /api/quizzes/:id",
    "DELETE /api/quizzes/:id"
  ]

  /** The `:id` of a path `/api/quizzes/:id`: one non-empty segment. */
  function QuizId(path: string): (r: Option<string>)
    ensures r.Some? <==>
      |path| > |QuizzesPath| + 1 && path[..|QuizzesPath| + 1] == QuizzesPath + "/" && '/' !in path[|QuizzesPath| + 1..]
    ensures r.Some? ==> path == QuizzesPath + "/" + r.value
  {
    var n := |QuizzesPath| + 1;
    if |path| > n && path[..n] == QuizzesPath + "/" && '/' !in path[n..] then
      assert path == path[..n] + path[n..];
      Some(path[n..])
    else None
  }

  /** The route a request takes, in registration order. */
  datatype Route = HealthRoute | ListRoute | CreateRoute | GetRoute(id: string) | PutRoute(id: string)
                 | DeleteRoute(id: string) | Preflight | Fallback

  function RouteOf(verb: string, path: string): (r: Route)
    ensures r == Fallback <==>
      && verb != "OPTIONS"
      && !(verb == "GET" && (path == "/api/health" || path == QuizzesPath || QuizId(path).Some?))
      && !(verb == "POST" && path == QuizzesPath)
      && !((verb == "PUT" || verb == "DELETE") && QuizId(path).Some?)
    ensures r.CreateRoute? ==> verb == "POST"
    ensures r.PutRoute? ==> verb == "PUT"
    ensures r.DeleteRoute? ==> verb == "DELETE"
    ensures r.Preflight? <==> verb == "OPTIONS"
  {
    if verb == "GET" && path == "/api/health" then HealthRoute
    else if verb == "GET" && path == QuizzesPath then ListRoute
    else if verb == "POST" && path == QuizzesPath then CreateRoute
    else if verb == "GET" && QuizId(path).Some? then GetRoute(QuizId(path).value)
    else if verb == "PUT" && QuizId(path).Some? then PutRoute(QuizId(path).value)
    else if verb == "DELETE" && QuizId(path).Some? then DeleteRoute(QuizId(path).value)
    else if verb == "OPTIONS" then Preflight
    else Fallback
  }

  /** `router.handle`: dispatch to the first matching route. Only the
      create, update and delete routes change the namespace. */
  function Handle(kv: Kv, req: Request, amb: Ambient): (r: Outcome)
    ensures RouteOf(req.verb, req.path) == Fallback ==>
      r == Outcome(kv, Json(Unrouted("Not found", Available), 404))
    ensures req.verb == "OPTIONS" ==> r == Outcome(kv, Response(200, None, CorsHeaders))
    ensures req.verb !in {"POST", "PUT", "DELETE"} ==> r.kv == kv
    ensures r.response.headers == CorsHeaders
  {
    match RouteOf(req.verb, req.path)
    case HealthRoute => Outcome(kv, Json(Health("ok", "flashcard-worker")))
    case ListRoute => Outcome(kv, List(kv))
    case CreateRoute => Create(kv, req.body, amb)
    case GetRoute(id) => Outcome(kv, Get(kv, id))
    case PutRoute(id) => Update(kv, id, req.body, amb.updatedAt)
    case DeleteRoute(id) => Delete(kv, id)
    case Preflight => Outcome(kv, Response(200, None, CorsHeaders))
    case Fallback => Outcome(kv, Json(Unrouted("Not found", Available), 404))
  }

  /** Every request keeps the namespace well keyed. */
  lemma HandleKeepsWellKeyed(kv: Kv, req: Request, amb: Ambient)
    requires WellKeyed(kv)
    ensures WellKeyed(Handle(kv, req, amb).kv)
  {
    match RouteOf(req.verb, req.path)
    case CreateRoute => CreateWritesOneKey(kv, req.body, amb);
    case PutRoute(id) => UpdateKeepsOthers(kv, id, req.body, amb.updatedAt);
    case _ =>
  }
}
